=== FILE: README.md ===
# Patient records store with Google Drive sync — a Dafny model

This project models the core of a small patient-records app. The app keeps
its patients in an encrypted SQLite file, reached through a connection pool.
Every write stamps a metadata row with a `lastModified` time. To sync, the
app pushes the whole file to the app-data folder of Google Drive. It pulls
the remote copy back, replacing the local file, only when the remote
timestamp is strictly newer.

The model is functional:
- The store is an immutable value: its pool, its encryption flag, a map from
  file path to bytes, and the logical database (tables, patient rows,
  metadata row).
- Each operation of the store manager is a function that returns the next
  store together with a `Result`.
- The sync coordinator is a small state record threaded through the same
  kind of functions.
- Every reply from the outside is a parameter. That covers the SQLite
  engine, the file system, the network, the server clock, the local clock,
  UUIDs and random numbers.

Modules, one per source file or concern:

- `Base` — `Option`, `Result`, bytes, and the subsequence relation.
- `Text` — Foundation-style whitespace trimming, ASCII lower-casing and
  substring search.
- `Decimal` — `Int64`, the text form `"\(n)"` produces, and the `Int64(_:)`
  parser, with their round trip.
- `Patients` — the record, its validation and its full name.
- `Store` — `DatabaseManager`: setup, migration, the single write path,
  reads, the replacement protocol, export and the push step.
- `DriveQuery` — the request building of `GoogleDriveHelper`.
- `Sync` — `CloudSyncManager`: the guarded pull cycle, start, stop, manual
  sync and timer ticks.
- `Repository` — `PatientRepository`.
- `Form` — the non-UI logic of `PatientFormView`.
- `ListModel` — the bookkeeping of `PatientListViewModel`.
- `PreviewDrive` — the in-memory Drive client used for previews.
- `DataFiles` — the `DataFile` document.

## Behaviour worth knowing

- A replacement removes the `-wal` and `-shm` side files with `try`, so a failed removal aborts the replacement.
- A pull cycle that finds no remote file fails with `fileNotFound`; the cycle never pushes.
- Stamps come from the server clock or the local clock, whichever is available; `Store.WriteTimestamp` stamps whatever time it is given, so successive stamps may go down.
- `savePatient` returns its argument unchanged. `Patient` adopts GRDB's non-mutating record protocol, so an inserted row's new id does not reach the caller.
- The setup at process start runs inside the shared manager's initializer (ToDo/DatabaseManager.swift:48-53). The list screen's `DatabaseManager.shared.delegate = self` (ToDo/ViewModels/PatientListViewModel.swift:24) can only run after that initializer has returned, whoever touched `shared` first. So the setup's `delegate?` call at ToDo/DatabaseManager.swift:86 finds no delegate and its fault is not delivered. The screen's first load then fails on the missing pool and raises the same alert.
- On iOS the form shows a second Save button inside the form (ToDo/Views/PatientFormView.swift:67-74), which is never disabled. A record with empty fields can reach `onSave` through it, and adding a patient does not validate, so such a row can be stored. Only the toolbar Save is disabled by `isValid`.
- Search uses Foundation's `contains`, which is false for the empty string, so an empty query finds no patient.

## Model

| member | source | states |
|---|---|---|
| Text.Trim | ToDo/Model/Patient.swift:45-55 | the result is an infix of the text with only whitespace before and after it, and it neither starts nor ends with whitespace; it is empty exactly when the text is all whitespace |
| Text.Lower | ToDo/Model/PatientRepository.swift:54-59 | lower-casing keeps the length, turns each ASCII capital into its small letter and changes no other character |
| Text.LowerIdempotent | ToDo/Model/PatientRepository.swift:54 | lower-casing a lower-cased text changes nothing |
| Text.ContainsAt | ToDo/Model/PatientRepository.swift:57-59 | an occurrence of a non-empty query at some position makes `contains` true |
| Text.ContainsHasPosition | ToDo/Model/PatientRepository.swift:57-59 | when `contains` is true the query is non-empty and occurs at some position |
| Decimal.NatDigits | ToDo/DatabaseManager.swift:408 | the decimal digits of a natural number have no leading zero |
| Decimal.NatDigitsValue | ToDo/DatabaseManager.swift:408 | reading the digits back yields the number |
| Decimal.ToDecimal | ToDo/DatabaseManager.swift:408 | the text of a stamp is a minus sign exactly for a negative value, followed by decimal digits |
| Decimal.ParseInt64 | ToDo/Helpers/CloudSyncManager.swift:176-177 | accepted text is an optional sign followed by at least one digit, and its value is the digits' value, negated after a minus; conversely every such text whose value fits in 64 bits is accepted with that value |
| Decimal.DecimalRoundTrip | ToDo/Helpers/CloudSyncManager.swift:176-177 | the string written for any `Int64` timestamp is parsed back to the same value |
| Decimal.ParseRejectsNonDigit | ToDo/Helpers/CloudSyncManager.swift:176-180 | a character other than a digit after the first position makes the parse fail |
| Patients.Validate | ToDo/Model/Patient.swift:44-60 | each error is returned exactly when its check is the first to fail, in the order first name, last name, record number, birth date; no error exactly when the record is acceptable; a birth date equal to now is accepted |
| Patients.ValidateIgnoresNotesAndId | ToDo/Model/Patient.swift:44-60 | notes and id never affect validation |
| Patients.ErrorDescription | ToDo/Model/Patient.swift:11-22 | each validation failure has its own message, and each message names exactly one failure |
| Patients.FullName | ToDo/Model/Patient.swift:35-37 | the full name is the first name, one space, then the last name |
| Patients.FullNameSplits | ToDo/Model/Patient.swift:35-37 | for a first name without spaces, the full name splits at its first space into the first name and the last name |
| Patients.IndexOfId | ToDo/ViewModels/PatientListViewModel.swift:167 | the index returned holds the id and no earlier index does; none means no row holds it |
| DriveQuery.AndThen | ToDo/Helpers/GoogleDriveHelper.swift:98-112 | the clause is joined with " and " exactly when something precedes it |
| DriveQuery.QueryString | ToDo/Helpers/GoogleDriveHelper.swift:97-116 | the caller's query comes first, joined by " and " to the folder condition when a folder is given; "trashed=false" is then appended, joined the same way, exactly when that string does not already contain "trashed"; the result is never empty |
| DriveQuery.QueryStringIdempotent | ToDo/Helpers/GoogleDriveHelper.swift:106-112 | building a query from an already built query changes nothing, so the trash filter is never added twice |
| DriveQuery.QueryFiles | ToDo/Helpers/GoogleDriveHelper.swift:93-124 | the request searches "appDataFolder" with exactly the built query string, keeps the ordering and uses `maxResults` as page size |
| DriveQuery.ListFiles | ToDo/Helpers/GoogleDriveHelper.swift:23-29 | a query is set exactly when a folder is given, and then it is "'<id>' in parents and trashed=false" |
| DriveQuery.UploadMetadata | ToDo/Helpers/GoogleDriveHelper.swift:150-163 | the upload carries the name, every given property key with its value, and the folder as sole parent exactly when one is given |
| DriveQuery.UpdateMetadata | ToDo/Helpers/GoogleDriveHelper.swift:217-226 | an update carries exactly the given properties and no name or parents |
| DriveQuery.Complete | ToDo/Helpers/GoogleDriveHelper.swift:30-41 | an error is passed on alone; a value is passed exactly when there is no error and the reply has the expected type; both are never set |
| Store.PathsDistinct | ToDo/DatabaseManager.swift:114-117 | the store file and its two side files are three different paths |
| Store.Migrate | ToDo/DatabaseManager.swift:165-187 | both tables exist afterwards, rows are untouched, an existing metadata row is kept, and a missing one is created with id 1, the clock's time and version "1.0" |
| Store.MigrateIdempotent | ToDo/DatabaseManager.swift:165-187 | migrating a migrated database changes nothing, whatever the clock says |
| Store.NextRowId | ToDo/DatabaseManager.swift:168 | an auto-incremented id is positive, above every id handed out before, and used by no row |
| Store.SaveRow | ToDo/DatabaseManager.swift:172 | a save fails without the patients table, and fails on a record number another row holds, and otherwise succeeds; an update overwrites the row with the patient's id in place; an insert appends, under the next auto-incremented id when the patient has none |
| Store.SaveRowKeepsKeys | ToDo/DatabaseManager.swift:168-172 | a successful save keeps ids present and distinct and record numbers distinct |
| Store.DeleteRow | ToDo/DatabaseManager.swift:340 | a delete drops every copy of the rows with the patient's id, keeps every other row with its multiplicity and order, and drops nothing when the patient has no id |
| Store.WriteTimestamp | ToDo/DatabaseManager.swift:224-227 | the stamp is the server time when there is one and the local clock otherwise |
| Store.Commit | ToDo/DatabaseManager.swift:230-240 | the transaction applies the mutation and stamps row 1, and fails with `dbInfoNotFound` when the row is missing |
| Store.PerformWrite | ToDo/DatabaseManager.swift:211-246 | without a pool it fails with `databaseNotInitialized`; on any failure the store is unchanged; on success the rows are the mutation's and the metadata row carries the write's stamp |
| Store.PerformWriteSync | ToDo/DatabaseManager.swift:248-264 | the same transaction, always stamped with the local clock |
| Store.SavePatient | ToDo/DatabaseManager.swift:310-333 | saving succeeds exactly when the store is open and the row save succeeds; it returns its argument and stamps the write; failure changes nothing |
| Store.DeletePatient | ToDo/DatabaseManager.swift:335-353 | deleting succeeds exactly when the store is open with its table and metadata row; it removes the rows with the patient's id, keeps the others in order, and stamps the write |
| Store.LoadPatients | ToDo/DatabaseManager.swift:355-368 | loading fails without a pool or on a read fault and otherwise yields every row |
| Store.FetchPatient | ToDo/DatabaseManager.swift:370-377 | a fetched row is stored and has the id; no row means none has it |
| Store.LastModified | ToDo/DatabaseManager.swift:443-454 | the stamp is read from row 1; no pool gives `databaseNotInitialized` and a missing row gives `dbInfoNotFound` |
| Store.DatabaseErrorDescription | ToDo/DatabaseManager.swift:26-37 | each store error has its own message, and each message names exactly one error |
| Store.Setup | ToDo/DatabaseManager.swift:60-88 | the pool is opened exactly when the directory, the open and the migration all succeed; otherwise it is nil and the fault is reported |
| Store.Initial | ToDo/DatabaseManager.swift:48-53 | the manager starts with encryption on; the pool opens exactly when setup succeeds, and then holds the file's rows with a metadata row; otherwise a fault is produced |
| Store.ToggleEncryption | ToDo/DatabaseManager.swift:55-58 | toggling flips the flag and reopens the pool under the new setting |
| Store.ToggleTwiceRestoresSetting | ToDo/DatabaseManager.swift:55-88 | toggling twice restores the flag and the files; after a clean second re-open the pool runs under the original setting on the freshly migrated image, and otherwise it is nil |
| Store.RemoveIfPresent | ToDo/DatabaseManager.swift:126-140 | a missing file is no error, a present one is removed, and a failed removal is an error |
| Store.Replace | ToDo/DatabaseManager.swift:90-163 | a missing candidate, a failing attribute read and an empty candidate are rejected, in that order, before anything changes; the pool is released first and stays nil on every later failure; files other than the store's own are never touched; success happens exactly when every step succeeds, and then the side files are gone, the store file holds exactly the candidate's bytes, the steps are release, removals of present files, copy, re-open, and the pool is live; a failed re-open throws `databaseNotInitialized` |
| Store.ExportToDocuments | ToDo/DatabaseManager.swift:282-307 | export fails without a pool; it succeeds exactly when every step does, and then the export path holds the backup's bytes and no other file changes |
| Store.PushListQuery | ToDo/DatabaseManager.swift:392 | the push searches the app-data folder with the default page size and the query "name contains 'db' and trashed=false" |
| Store.TimestampProperties | ToDo/DatabaseManager.swift:408 | the properties hold only `lastModified`, whose text parses back to the stamp |
| Store.PushDatabaseToCloud | ToDo/DatabaseManager.swift:379-440 | a request is issued exactly when the stamp read, the export and reading the export back succeed; a failed read-back throws and leaves the export in place; the request carries the stamp property, the exported bytes and the SQLite MIME type; it updates the first listed file when one has an id, and otherwise uploads "db.sqlite" into the app-data folder |
| Sync.TempPath | ToDo/Helpers/CloudSyncManager.swift:206-207 | the temporary download never collides with the store's files |
| Sync.CloudErrorDescription | ToDo/Helpers/CloudSyncManager.swift:15-30 | each sync error has its own message, and each message names exactly one error |
| Sync.RemoteFileId | ToDo/Helpers/CloudSyncManager.swift:137-151 | an id is found exactly when the listing succeeded, is non-empty and its first file has an id; otherwise `fileNotFound` |
| Sync.CloudTimestamp | ToDo/Helpers/CloudSyncManager.swift:167-179 | the remote stamp is found exactly when metadata, properties and a parseable `lastModified` are present; otherwise `invalidMetadata` |
| Sync.Decide | ToDo/Helpers/CloudSyncManager.swift:131-185 | errors surface in the order local read, file lookup, metadata; a pull is chosen exactly when the cloud stamp is strictly greater than the local one |
| Sync.PullRemote | ToDo/Helpers/CloudSyncManager.swift:187-230 | a missing download gives `downloadFailed` with the store untouched; a failed temporary write reports its error with the store untouched; a failed replacement reports its error and leaves the temporary file in place; the notification is posted exactly when the write and the replacement succeed, and then the store file holds the downloaded bytes, the sync date is now and the status is "Last synced: …" |
| Sync.RunCycle | ToDo/Helpers/CloudSyncManager.swift:131-239 | a failed decision is reported as "Error: " and its description, equal or older stamps give "Database is up to date", and a strictly newer remote stamp pulls; only a pull changes the store |
| Sync.BeginSync | ToDo/Helpers/CloudSyncManager.swift:127-128 | taking the guard raises `isSyncing` and sets the status to "Syncing..."; the enabled flag, last sync date, Drive helper and timer are unchanged |
| Sync.PerformSync | ToDo/Helpers/CloudSyncManager.swift:115-242 | a cycle is a no-op while another holds the guard; the guard is always released; the store changes only on a strictly newer remote copy; every failure, whether of the decision, the download, the temporary write or the replacement, becomes "Error: " and its description; equal or older stamps give "Database is up to date" |
| Sync.GuardedRequestIsNoOp | ToDo/Helpers/CloudSyncManager.swift:116-119 | a request arriving during a cycle changes nothing |
| Sync.InitializeWithUser | ToDo/Helpers/CloudSyncManager.swift:66-70 | a helper exists afterwards and the status is "Ready to sync" |
| Sync.StopAutoSync | ToDo/Helpers/CloudSyncManager.swift:97-102 | the timer is gone and sync is disabled |
| Sync.StartAutoSync | ToDo/Helpers/CloudSyncManager.swift:72-95 | sync ends enabled with a timer exactly when a helper exists, and then one cycle runs at once; without a helper the status reports it |
| Sync.ManualSync | ToDo/Helpers/CloudSyncManager.swift:105-113 | without a helper only the status changes; otherwise one cycle runs |
| Sync.TimerFired | ToDo/Helpers/CloudSyncManager.swift:85-89 | a tick runs a cycle only while the timer is scheduled |
| Sync.StoppedTimerIsInert | ToDo/Helpers/CloudSyncManager.swift:97-102 | after a stop, ticks do nothing |
| Sync.PushedStampIsReadBack | ToDo/Helpers/CloudSyncManager.swift:167-179 | the stamp a push writes is exactly what a pull reads |
| Sync.OwnPushIsNotPulled | ToDo/Helpers/CloudSyncManager.swift:185 | when the remote file is this store's own push, the cycle finds equal stamps and does not pull |
| Repository.SavePatient | ToDo/Model/PatientRepository.swift:26-29 | an invalid record is rejected with its validation error and never reaches the store; a valid one leaves exactly the store's own save outcome, its failure carrying the store's error |
| Repository.DeletePatient | ToDo/Model/PatientRepository.swift:31-33 | delete is forwarded: the store and the success are the manager's, and a failure carries the manager's error unchanged |
| Repository.LoadPatients | ToDo/Model/PatientRepository.swift:35-46 | loading returns the store's rows, `databaseNotInitialized` without a pool, or the read's own error unchanged |
| Repository.FetchPatient | ToDo/Model/PatientRepository.swift:48-50 | fetch is forwarded: the manager's result exactly, `databaseNotInitialized` without a pool, or the read's own error unchanged |
| Repository.Matching | ToDo/Model/PatientRepository.swift:56-60 | the result holds exactly the matching patients, in their original order; the empty query matches no patient |
| Repository.MatchingCounts | ToDo/Model/PatientRepository.swift:56-60 | the filter keeps every copy of a matching patient and no copy of any other, where matching uses Foundation's `contains`, false for the empty query |
| Repository.SearchPatients | ToDo/Model/PatientRepository.swift:52-61 | search yields, in order, the loaded patients whose lower-cased first name, last name or record number contains the lower-cased query; an empty query finds no patient |
| Repository.EmptyQueryFindsNone | ToDo/Model/PatientRepository.swift:56-60 | the empty query keeps no patient |
| Repository.LongerQueryNarrows | ToDo/Model/PatientRepository.swift:56-60 | every patient a query finds is also found by each non-empty prefix of that query |
| Repository.FoundByFirstName | ToDo/Model/PatientRepository.swift:56-57 | every stored patient with a non-empty first name is found by it, however the query is cased |
| Form.ModeEquals | ToDo/Views/PatientFormView.swift:15-24 | the hand-written equality of modes coincides with structural equality |
| Form.Prefill | ToDo/Views/PatientFormView.swift:38-49 | edit mode copies every field and shows absent notes as ""; add mode starts empty, dated now |
| Form.IsValid | ToDo/Views/PatientFormView.swift:100-102 | the toolbar Save is enabled exactly when the three texts are non-empty, with no trimming |
| Form.BuildPatient | ToDo/Views/PatientFormView.swift:104-115 | the id is absent in add mode and the edited patient's in edit mode; empty notes become absent and other notes are kept |
| Form.Title | ToDo/Views/PatientFormView.swift:78 | the title is "Add Patient" exactly when the mode equals add |
| Form.EditRoundTrip | ToDo/Views/PatientFormView.swift:42-48 | saving an unchanged edit form gives the patient back, except that notes "" become absent |
| Form.AcceptedRecordEnablesSave | ToDo/Views/PatientFormView.swift:100-102 | a record validation accepts always enables the toolbar Save |
| Form.BlankNameEnablesSave | ToDo/Views/PatientFormView.swift:100-102 | the converse fails: a one-space first name enables the toolbar Save and is then rejected by validation |
| ListModel.DidEncounterDatabaseError | ToDo/ViewModels/PatientListViewModel.swift:137-143 | a database error raises the fixed alert, disables adding and empties the list |
| ListModel.Launch | ToDo/ViewModels/PatientListViewModel.swift:23-26 | the screen opens on the store's rows, or with the alert raised when the store has no pool or the read fails |
| ListModel.StartupFaultAlerts | ToDo/ViewModels/PatientListViewModel.swift:23-26 | a fault while the manager first opens the store reaches no delegate, yet the screen still shows the alert, because its first load finds no pool |
| ListModel.LoadPatients | ToDo/ViewModels/PatientListViewModel.swift:37-49 | a successful load shows the store's rows and re-enables adding; a failure is reported as a database error |
| ListModel.AddPatient | ToDo/ViewModels/PatientListViewModel.swift:145-153 | a saved patient is appended at the end; on failure nothing changes |
| ListModel.RemoveAt | ToDo/ViewModels/PatientListViewModel.swift:159 | removing at an index shifts later rows down by one and keeps earlier ones |
| ListModel.DeletePatient | ToDo/ViewModels/PatientListViewModel.swift:166-175 | the first row with the same id is removed only after the store delete succeeds; otherwise nothing changes |
| ListModel.ExportDatabase | ToDo/ViewModels/PatientListViewModel.swift:51-58 | a failed export sets the message "Export failed: " and the description, and the list is untouched |
| ListModel.DeleteKeepsWritable | ToDo/DatabaseManager.swift:335-353 | deleting from an open store with its table and metadata row succeeds and keeps it so |
| ListModel.DeleteStep | ToDo/ViewModels/PatientListViewModel.swift:157-162 | one iteration removes the row at the offset exactly when the store accepts deletions |
| ListModel.DeleteAtAsWritten | ToDo/ViewModels/PatientListViewModel.swift:155-164 | the offsets are used in ascending order against the shrinking list; an offset beyond its end traps |
| ListModel.AsWrittenTrapCondition | ToDo/ViewModels/PatientListViewModel.swift:155-164 | on a writable store the loop as written finishes exactly when each k-th offset plus k is below the original row count, and then exactly as many rows as offsets are gone |
| ListModel.SingleOffsetRemovesThatRow | ToDo/ViewModels/PatientListViewModel.swift:155-164 | with a single offset exactly that row is removed |
| ListModel.AsWrittenDeletesWrongRow | ToDo/ViewModels/PatientListViewModel.swift:155-164 | swiping rows 0 and 1 of [a, b, c] keeps b, where c was meant to remain |
| ListModel.SwipeFirstTwoMeansLast | ToDo/ViewModels/PatientListViewModel.swift:155-164 | swiping positions 0 and 1 of [a, b, c] means keeping only c |
| ListModel.AsWrittenTrapsOnLastOffset | ToDo/ViewModels/PatientListViewModel.swift:155-164 | swiping rows 0 and 2 of a three-row list traps |
| ListModel.DeleteAt | ToDo/ViewModels/PatientListViewModel.swift:155-164 | with descending offsets, the list afterwards is the original without exactly the swiped rows |
| ListModel.WithoutRemoveAt | ToDo/ViewModels/PatientListViewModel.swift:159 | removing the highest swiped row first leaves every lower position in place |
| PreviewDrive.Initial | ToDo/Refactoring/Dependencies.swift:22-45 | the preview starts signed out with files preview-1, preview-2 and preview-3 in that order |
| PreviewDrive.SignIn | ToDo/Refactoring/Dependencies.swift:51 | signing in sets the flag and keeps the files |
| PreviewDrive.SignOut | ToDo/Refactoring/Dependencies.swift:54 | signing out clears the flag and keeps the files |
| PreviewDrive.ListFiles | ToDo/Refactoring/Dependencies.swift:71-77 | a listing is the whole list in one complete page |
| PreviewDrive.FirstWithId | ToDo/Refactoring/Dependencies.swift:79 | the file found has the id and no earlier file does; none is found exactly when no file has it |
| PreviewDrive.GetFile | ToDo/Refactoring/Dependencies.swift:78-82 | the first file with the id is returned when one exists, otherwise status 404 |
| PreviewDrive.GetFileData | ToDo/Refactoring/Dependencies.swift:83-85 | the content is "Content of file: " followed by the id |
| PreviewDrive.CreateFile | ToDo/Refactoring/Dependencies.swift:86-96 | the new file comes first under id "preview-" and the UUID, named "preview" followed by the three digits of the drawn number, and the others follow unchanged |
| PreviewDrive.UpdateFileData | ToDo/Refactoring/Dependencies.swift:97-103 | an unknown id gives 404; otherwise every file with the id is replaced by the stamped first match and the rest are kept, with the length unchanged |
| PreviewDrive.DeleteFile | ToDo/Refactoring/Dependencies.swift:104-106 | every file with the id is dropped and every other file is kept, each copy of it, in order; an unknown id changes nothing |
| PreviewDrive.DeleteIdempotent | ToDo/Refactoring/Dependencies.swift:104-106 | deleting twice is deleting once |
| PreviewDrive.CreatedFileIsFound | ToDo/Refactoring/Dependencies.swift:78-96 | a file just created is what a lookup of its id returns |
| PreviewDrive.CreateThenDeleteRestores | ToDo/Refactoring/Dependencies.swift:86-106 | creating under a fresh id and deleting that id restores the store |
| PreviewDrive.UpdatedFileIsFound | ToDo/Refactoring/Dependencies.swift:78-103 | after an update, a lookup of the id returns the stamped file |
| DataFiles.ContentType | ToDo/Model/DataFile.swift:9-22 | the four known MIME strings map to plain text, JPEG, PDF and JSON, and any other string to data |
| DataFiles.MimeFor | ToDo/Model/DataFile.swift:9-22 | exactly the generic data kind has no MIME string |
| DataFiles.MimeForInverts | ToDo/Model/DataFile.swift:9-22 | a recognised MIME string is recovered from its content type |
| DataFiles.ContentTypeRecovers | ToDo/Model/DataFile.swift:9-22 | every specific kind comes back from its MIME string |
| DataFiles.MakeDataFile | ToDo/Model/DataFile.swift:26-30 | the document keeps data, file name and MIME string unchanged |
| DataFiles.ReadDataFile | ToDo/Model/DataFile.swift:36-38 | reading always fails with `featureUnsupported` |
| DataFiles.FileWrapper | ToDo/Model/DataFile.swift:32-34 | the written file holds the document's bytes, byte for byte |
| DataFiles.WriteReturnsData | ToDo/Model/DataFile.swift:32-34 | writing a document yields exactly its bytes |

## Left out

- SQLite, GRDB and SQLCipher internals are inputs. Opening a pool yields a database image or an error; the migration write, the backup and the reads may fault. The on-disk encoding of rows and all cryptography are not modelled, so writes change the logical database and not the file's bytes.
- Server time is an `Option` input. Fetching and parsing it happens in ServerTimeUtil.swift, which is not part of this model.
- Google Drive transport and sign-in are replaced by their replies, given as parameters: listings, metadata, downloads and upload outcomes. So are GoogleSignInHelper.swift and the live client configuration.
- Store.Setup: at process start the setup fault reaches no delegate, because the list screen can register itself only after the shared manager's initializer, which runs setup, has returned. The model records the fault, and `ListModel.StartupFaultAlerts` shows that the alert still appears through the first load.
- Store.PushDatabaseToCloud: the force-unwrapped signed-in user is assumed present. Upload and update replies are only logged by the source, so they do not affect the result.
- Timers, tasks, main-queue dispatch, semaphores and continuations are not modelled. Every operation is one sequential step, and the sync guard is plain state.
- Sync.PerformSync: the status text is recorded at once, although the source publishes it asynchronously on the main queue. The date text of "Last synced: …" is a parameter.
- Store.Setup: creating the support directory and the store file is an input fault, not a file-system change.
- Sync.PullRemote: faults handed to the delegate when a replacement's re-open fails are not threaded into the coordinator's state.
- Text.Lower: only ASCII letters are lower-cased. Swift's full Unicode case mapping is not modelled.
- Text.Contains: it follows Foundation's documented `contains(_:)`, which is false for the empty string. The standard library's own `contains` overload, which is true for the empty string, is not modelled.
- `DataFile.readableContentTypes` is not modelled: reading always throws, so the list decides nothing.
- Row order of `fetchAll` is the order rows were inserted; SQLite's physical ordering is not modelled.
- `PatientListViewModel.pushDatabase` and `pullDatabase` are network plus file writes with no decision beyond taking the first file, so they are left out.
- `Patient.age` depends on calendar arithmetic and is left out.
- `PatientDetailViewModel` is a two-call wrapper that swallows errors, and is left out.
- The unused `updateLastModified` and the commented-out `performRead` are dead code and are left out, as is all logging.
- Pure SwiftUI layout is left out.
- UTF-8 encoding of `getFileData`'s text is not modelled; the model returns the text itself.

## Findings

| source | as written | input that shows it | evidently intended | confidence | as-written member | corrected member |
|---|---|---|---|---|---|---|
| ToDo/ViewModels/PatientListViewModel.swift:155-164 | `deletePatients(at:)` visits the offsets in ascending order and removes each from the list as it shrinks, so later offsets point past the rows they named | offsets {0, 1} on [a, b, c] delete a and then c, leaving [b]; offsets {0, 2} on a three-row list index past the end and trap | remove exactly the swiped rows, for instance by visiting the offsets in descending order | high (not executed) | ListModel.AsWrittenDeletesWrongRow | ListModel.DeleteAt |

=== FILE: base.dfy ===
/** Basic value types shared by every module: optional values, results
    carrying an error, and raw bytes. */
module Base {

  /** An optional value (Swift's `T?`). */
  datatype Option<+T> = None | Some(value: T) {

    /** The wrapped value, or `default` when there is none. */
    function GetOr(default: T): T {
      match this
      case Some(v) => v
      case None => default
    }
  }

  /** A value or the error that prevented it (a Swift `throws` or `Result`). */
  datatype Result<+T, +E> = Ok(value: T) | Err(error: E)

  /** One byte of file or network content. */
  newtype byte = x: int | 0 <= x < 256

  /** The contents of a file or of a downloaded blob. */
  type Bytes = seq<byte>

  /** `a` is `b` with some elements dropped and the rest in their order. */
  predicate SubsequenceOf<T(==)>(a: seq<T>, b: seq<T>)
    decreases |b|
  {
    if |a| == 0 then true
    else if |b| == 0 then false
    else if a[0] == b[0] then SubsequenceOf(a[1..], b[1..])
    else SubsequenceOf(a, b[1..])
  }

  /** Every sequence is a subsequence of itself. */
  lemma {:induction false} SubsequenceOfSelf<T>(a: seq<T>)
    ensures SubsequenceOf(a, a)
    decreases |a|
  {
    if |a| > 0 {
      SubsequenceOfSelf(a[1..]);
    }
  }
}

=== FILE: data_file.dfy ===
/** The exported-file document (ToDo/Model/DataFile.swift): its content
    type derived from the MIME string, and a write-only document protocol. */
module DataFiles {
  import opened Base

  /** The uniform type identifiers the document can report. */
  datatype ContentKind = PlainText | Jpeg | Pdf | Json | Data

  /** The MIME strings the document recognises. */
  const PlainTextMime: string := "text/plain"
  const JpegMime: string := "image/jpeg"
  const PdfMime: string := "application/pdf"
  const JsonMime: string := "application/json"

  /** `contentType`: the four known MIME strings, and `data` for any other. */
  function ContentType(mimeType: string): (k: ContentKind)
    ensures k == PlainText <==> mimeType == PlainTextMime
    ensures k == Jpeg <==> mimeType == JpegMime
    ensures k == Pdf <==> mimeType == PdfMime
    ensures k == Json <==> mimeType == JsonMime
  {
    if mimeType == PlainTextMime then PlainText
    else if mimeType == JpegMime then Jpeg
    else if mimeType == PdfMime then Pdf
    else if mimeType == JsonMime then Json
    else Data
  }

  /** The MIME string each specific kind comes from; `data` has none. */
  function MimeFor(k: ContentKind): (m: Option<string>)
    ensures m.None? <==> k == Data
  {
    match k
    case PlainText => Some(PlainTextMime)
    case Jpeg => Some(JpegMime)
    case Pdf => Some(PdfMime)
    case Json => Some(JsonMime)
    case Data => None
  }

  /** `MimeFor` inverts `ContentType` on the recognised strings. */
  lemma MimeForInverts(mimeType: string)
    ensures ContentType(mimeType) != Data ==> MimeFor(ContentType(mimeType)) == Some(mimeType)
    ensures ContentType(mimeType) == Data ==> forall k :: MimeFor(k) != Some(mimeType)
  {
  }

  lemma ContentTypeRecovers(k: ContentKind)
    requires k != Data
    ensures ContentType(MimeFor(k).value) == k
  {
  }

  /** The document: the bytes, the suggested file name and the MIME string. */
  datatype DataFile = DataFile(data: Bytes, fileName: string, mimeType: string)

  /** `init(data:fileName:mimeType:)` keeps all three unchanged. */
  function MakeDataFile(data: Bytes, fileName: string, mimeType: string): (f: DataFile)
    ensures f.data == data && f.fileName == fileName && f.mimeType == mimeType
  {
    DataFile(data, fileName, mimeType)
  }

  /** The Cocoa error the reading initialiser throws. */
  datatype ReadError = FeatureUnsupported

  /** `init(configuration:)`: reading is not supported, whatever the input. */
  function ReadDataFile(contents: Bytes): (r: Result<DataFile, ReadError>)
    ensures r == Err(FeatureUnsupported)
  {
    Err(FeatureUnsupported)
  }

  /** `fileWrapper(configuration:)`: a regular file holding the data. */
  function FileWrapper(f: DataFile): (contents: Bytes)
    ensures |contents| == |f.data| && forall i :: 0 <= i < |contents| ==> contents[i] == f.data[i]
  {
    f.data
  }

  /** Writing a freshly made document yields exactly the bytes it was made
      from. */
  lemma WriteReturnsData(data: Bytes, fileName: string, mimeType: string)
    ensures FileWrapper(MakeDataFile(data, fileName, mimeType)) == data
  {
  }
}

=== FILE: decimal.dfy ===
/** Signed 64-bit integers and their decimal text form: Swift's string
    interpolation `"\(n)"` and the failable initialiser `Int64(_: String)`. */
module Decimal {
  import opened Base

  const Int64Min: int := -0x8000_0000_0000_0000
  const Int64Max: int := 0x7FFF_FFFF_FFFF_FFFF

  /** Swift's `Int64`. */
  newtype int64 = x: int | -0x8000_0000_0000_0000 <= x <= 0x7FFF_FFFF_FFFF_FFFF

  predicate IsDigit(c: char) {
    '0' <= c <= '9'
  }

  predicate AllDigits(s: string) {
    forall i :: 0 <= i < |s| ==> IsDigit(s[i])
  }

  function DigitValue(c: char): (d: nat)
    requires IsDigit(c)
    ensures d < 10
  {
    c as int - '0' as int
  }

  function DigitChar(d: nat): (c: char)
    requires d < 10
    ensures IsDigit(c) && DigitValue(c) == d
  {
    ('0' as int + d) as char
  }

  /** The value of a run of decimal digits, most significant first. */
  function DigitsValue(s: string): nat
    requires AllDigits(s)
  {
    if |s| == 0 then 0
    else
      assert AllDigits(s[..|s| - 1]) by {
        assert forall i :: 0 <= i < |s| - 1 ==> s[..|s| - 1][i] == s[i];
      }
      DigitsValue(s[..|s| - 1]) * 10 + DigitValue(s[|s| - 1])
  }

  /** The shortest decimal digits of `n`: no leading zero, "0" for zero. */
  function NatDigits(n: nat): (s: string)
    ensures |s| >= 1 && AllDigits(s)
    ensures |s| > 1 ==> s[0] != '0'
    decreases n
  {
    if n < 10 then [DigitChar(n)]
    else
      var front := NatDigits(n / 10);
      front + [DigitChar(n % 10)]
  }

  /** Reading back the digits of `n` yields `n`. */
  lemma {:induction false} NatDigitsValue(n: nat)
    ensures DigitsValue(NatDigits(n)) == n
    decreases n
  {
    var s := NatDigits(n);
    if n >= 10 {
      NatDigitsValue(n / 10);
      assert s[..|s| - 1] == NatDigits(n / 10);
    }
  }

  /** `"\(n)"` for an `Int64`: optional minus sign, then the digits. */
  function ToDecimal(n: int64): (s: string)
    ensures |s| >= 1
    ensures s[0] == '-' <==> n < 0
    ensures n >= 0 ==> AllDigits(s)
    ensures n < 0 ==> AllDigits(s[1..])
  {
    if n < 0 then "-" + NatDigits(-(n as int)) else NatDigits(n as int)
  }

  /** `Int64(text)`: an optional `+` or `-`, then at least one decimal
      digit and nothing else, whose value fits in 64 bits; `None` otherwise. */
  function ParseInt64(s: string): (r: Option<int64>)
    ensures r.Some? ==> |s| > 0
    ensures r.Some? && s[0] != '-' && s[0] != '+' ==> AllDigits(s) && r.value as int == DigitsValue(s)
    ensures r.Some? && (s[0] == '-' || s[0] == '+') ==> |s| > 1 && AllDigits(s[1..])
    ensures r.Some? && s[0] == '-' ==> r.value as int == -(DigitsValue(s[1..]) as int)
    ensures r.Some? && s[0] == '+' ==> r.value as int == DigitsValue(s[1..])
    // the converse: every well-formed text whose value fits is accepted
    ensures |s| > 0 && AllDigits(s) && DigitsValue(s) <= Int64Max ==> r == Some(DigitsValue(s) as int64)
    ensures |s| > 1 && s[0] == '-' && AllDigits(s[1..]) && -(DigitsValue(s[1..]) as int) >= Int64Min ==>
      r == Some((-(DigitsValue(s[1..]) as int)) as int64)
    ensures |s| > 1 && s[0] == '+' && AllDigits(s[1..]) && DigitsValue(s[1..]) <= Int64Max ==>
      r == Some(DigitsValue(s[1..]) as int64)
  {
    if |s| == 0 then None
    else
      var negative := s[0] == '-';
      var body := if s[0] == '-' || s[0] == '+' then s[1..] else s;
      if |body| == 0 || !AllDigits(body) then None
      else
        var v: int := if negative then -(DigitsValue(body) as int) else DigitsValue(body);
        if Int64Min <= v <= Int64Max then Some(v as int64) else None
  }

  /** The text written by `ToDecimal` is read back by `ParseInt64` unchanged:
      the cloud timestamp property round-trips through its string form. */
  lemma DecimalRoundTrip(n: int64)
    ensures ParseInt64(ToDecimal(n)) == Some(n)
  {
    var s := ToDecimal(n);
    if n < 0 {
      var digits := NatDigits(-(n as int));
      NatDigitsValue(-(n as int));
      assert s[1..] == digits;
    } else {
      NatDigitsValue(n as int);
      assert DigitChar(0) == '0';
    }
  }

  /** A string holding a character other than a digit or a leading sign is
      never a timestamp. */
  lemma ParseRejectsNonDigit(s: string, i: nat)
    requires 0 < i < |s| && !IsDigit(s[i])
    ensures ParseInt64(s) == None
  {
  }
}

=== FILE: drive_query.dfy ===
/** The request-building half of the Drive helper
    (ToDo/Helpers/GoogleDriveHelper.swift): file-list queries, the metadata
    sent with uploads and updates, and how a reply reaches the completion. */
module DriveQuery {
  import opened Base
  import opened Text

  /** Every query runs in the application's private folder. */
  const AppDataSpace: string := "appDataFolder"
  const DefaultMaxResults: int := 100
  const TrashedFilter: string := "trashed=false"

  /** The fields of a Drive file the app reads or writes. */
  datatype DriveFile = DriveFile(
    identifier: Option<string>,
    name: Option<string>,
    parents: Option<seq<string>>,
    properties: Option<map<string, string>>)

  /** A `files.list` request. */
  datatype ListQuery = ListQuery(
    spaces: string,
    q: Option<string>,
    orderBy: Option<string>,
    pageSize: Option<int>)

  /** The condition selecting children of `folderId`. */
  function InParents(folderId: string): string {
    "'" + folderId + "' in parents"
  }

  /** Appends `clause`, joined by " and " unless nothing precedes it. */
  function AndThen(q: string, clause: string): (r: string)
    ensures q == [] ==> r == clause
    ensures q != [] ==> r == q + " and " + clause
  {
    if q != [] then q + " and " + clause else q + clause
  }

  /** The query string `queryFiles` sends: the caller's query, then the folder
      condition, then the trash filter unless "trashed" already appears. */
  function QueryString(query: string, folderId: Option<string>): (r: string)
    ensures Contains(r, "trashed")
    ensures |r| > 0
    ensures Contains(query, "trashed") && folderId.None? ==> r == query
    ensures !Contains(query, "trashed") && folderId.None? ==> r == AndThen(query, TrashedFilter)
    ensures folderId.Some? ==> IsPrefix(AndThen(query, InParents(folderId.value)), r)
    ensures folderId.Some? && Contains(AndThen(query, InParents(folderId.value)), "trashed") ==>
      r == AndThen(query, InParents(folderId.value))
    ensures folderId.Some? && !Contains(AndThen(query, InParents(folderId.value)), "trashed") ==>
      r == AndThen(AndThen(query, InParents(folderId.value)), TrashedFilter)
  {
    var withFolder := if folderId.Some? then AndThen(query, InParents(folderId.value)) else query;
    if !Contains(withFolder, "trashed") then
      var r := AndThen(withFolder, TrashedFilter);
      assert OccursAt(r, "trashed", |r| - |TrashedFilter|);
      ContainsAt(r, "trashed", |r| - |TrashedFilter|);
      assert IsPrefix(withFolder, r);
      r
    else
      ContainsNonEmpty(withFolder, "trashed");
      withFolder
  }

  /** Building the query again from a built query changes nothing: the trash
      filter is never added twice. */
  lemma QueryStringIdempotent(query: string, folderId: Option<string>)
    ensures QueryString(QueryString(query, folderId), None) == QueryString(query, folderId)
  {
  }

  /** `queryFiles`: the request it executes. */
  function QueryFiles(query: string, folderId: Option<string>, orderBy: Option<string>, maxResults: int): (r: ListQuery)
    ensures r.spaces == AppDataSpace
    ensures r.q == Some(QueryString(query, folderId))
    ensures r.q.Some? && Contains(r.q.value, "trashed")
    ensures r.orderBy == orderBy
    ensures r.pageSize == Some(maxResults)
  {
    var qs := QueryString(query, folderId);
    ListQuery(AppDataSpace, if qs != [] then Some(qs) else None, orderBy, Some(maxResults))
  }

  /** `listFiles`: a folder restricts the listing and hides trashed files;
      without one the query string is left unset. */
  function ListFiles(folderId: Option<string>): (r: ListQuery)
    ensures r.spaces == AppDataSpace
    ensures r.q.Some? <==> folderId.Some?
    ensures folderId.Some? ==> r.q == Some(AndThen(InParents(folderId.value), TrashedFilter))
    ensures r.orderBy.None? && r.pageSize.None?
  {
    match folderId
    case Some(f) =>
      assert InParents(f)[0] == '\'';
      assert InParents(f) + " and trashed=false" == InParents(f) + " and " + TrashedFilter;
      ListQuery(AppDataSpace, Some(InParents(f) + " and trashed=false"), None, None)
    case None => ListQuery(AppDataSpace, None, None, None)
  }

  /** The metadata `uploadFile` creates: the name, every property given, and
      the folder as sole parent when one is given. */
  function UploadMetadata(name: string, folderId: Option<string>, properties: Option<map<string, string>>): (f: DriveFile)
    ensures f.name == Some(name) && f.identifier.None?
    ensures f.properties.Some? <==> properties.Some?
    ensures properties.Some? ==> forall k :: k in properties.value <==> k in f.properties.value
    ensures properties.Some? ==>
      forall k :: k in properties.value ==> f.properties.value[k] == properties.value[k]
    ensures f.parents.Some? <==> folderId.Some?
    ensures folderId.Some? ==> f.parents.value == [folderId.value]
  {
    var props := if properties.Some? then Some(CopyProperties(properties.value)) else None;
    DriveFile(None, Some(name), if folderId.Some? then Some([folderId.value]) else None, props)
  }

  /** The metadata `updateFile` sends: only the properties, copied one by one. */
  function UpdateMetadata(properties: Option<map<string, string>>): (f: DriveFile)
    ensures f.name.None? && f.parents.None? && f.identifier.None?
    ensures f.properties.Some? <==> properties.Some?
    ensures properties.Some? ==> f.properties.value == properties.value
  {
    DriveFile(None, None, None, if properties.Some? then Some(CopyProperties(properties.value)) else None)
  }

  /** `properties.forEach { setAdditionalProperty(value, forName: key) }`. */
  function CopyProperties(m: map<string, string>): (r: map<string, string>)
    ensures r == m
  {
    map k | k in m :: m[k]
  }

  /** What the service hands back besides an error: an object of the type the
      caller expects, or something else. */
  datatype Payload<T> = Expected(value: T) | Unexpected

  /** The completion arguments `(value, error)` every helper produces from a
      service reply: an error wins, then a value of the expected type, else
      both are nil. */
  function Complete<T, E>(result: Option<Payload<T>>, error: Option<E>): (r: (Option<T>, Option<E>))
    ensures r.1 == error
    ensures r.0.Some? <==> error.None? && result.Some? && result.value.Expected?
    ensures r.0.Some? ==> r.0.value == result.value.value
    ensures !(r.0.Some? && r.1.Some?)
  {
    if error.Some? then (None, error)
    else if result.Some? && result.value.Expected? then (Some(result.value.value), None)
    else (None, None)
  }

  /** A requested upload or update, as the store's push step issues it. */
  datatype DriveRequest =
    | Create(metadata: DriveFile, data: Bytes, mimeType: string)
    | Update(fileId: string, metadata: DriveFile, data: Bytes, mimeType: string)
}

=== FILE: form.dfy ===
/** The non-UI logic of the patient form (ToDo/Views/PatientFormView.swift):
    the mode, the prefilled fields, the enabling rule of the Save button and
    the record the form hands back. */
module Form {
  import opened Base
  import opened Text
  import opened Patients

  /** Whether the form adds a new patient or edits an existing one. */
  datatype FormMode = Add | Edit(patient: Patient)

  /** The hand-written `==` of `FormMode`: same case, and equal patients when
      both are edits. */
  function ModeEquals(a: FormMode, b: FormMode): (r: bool)
    ensures r <==> a == b
    ensures a.Add? && b.Edit? ==> !r
  {
    match (a, b)
    case (Add, Add) => true
    case (Edit(p1), Edit(p2)) => p1 == p2
    case _ => false
  }

  /** The form's editable state; notes are plain text, empty when absent. */
  datatype Fields = Fields(
    firstName: string,
    lastName: string,
    dateOfBirth: int,
    medicalRecordNumber: string,
    notes: string)

  /** `init(mode:onSave:)`: empty fields dated `now` when adding; a copy of
      the patient, with absent notes shown as "", when editing. */
  function Prefill(mode: FormMode, now: int): (f: Fields)
    ensures mode.Add? ==> f == Fields("", "", now, "", "")
    ensures mode.Edit? ==>
      && f.firstName == mode.patient.firstName
      && f.lastName == mode.patient.lastName
      && f.dateOfBirth == mode.patient.dateOfBirth
      && f.medicalRecordNumber == mode.patient.medicalRecordNumber
      && (mode.patient.notes.Some? ==> f.notes == mode.patient.notes.value)
      && (mode.patient.notes.None? ==> f.notes == "")
  {
    match mode
    case Add => Fields("", "", now, "", "")
    case Edit(p) => Fields(p.firstName, p.lastName, p.dateOfBirth, p.medicalRecordNumber, p.notes.GetOr(""))
  }

  /** `isValid`: the three texts are non-empty, with no trimming. */
  function IsValid(f: Fields): (r: bool)
    ensures r <==> |f.firstName| > 0 && |f.lastName| > 0 && |f.medicalRecordNumber| > 0
  {
    f.firstName != [] && f.lastName != [] && f.medicalRecordNumber != []
  }

  /** `savePatient()`: the record handed to `onSave`. */
  function BuildPatient(mode: FormMode, f: Fields): (p: Patient)
    ensures ModeEquals(mode, Add) ==> p.id.None?
    ensures mode.Edit? ==> p.id == mode.patient.id
    ensures p.notes.None? <==> f.notes == ""
    ensures p.notes.Some? ==> p.notes.value == f.notes
    ensures p.firstName == f.firstName && p.lastName == f.lastName
    ensures p.dateOfBirth == f.dateOfBirth && p.medicalRecordNumber == f.medicalRecordNumber
  {
    var id := if ModeEquals(mode, Add) then None else (match mode case Edit(q) => q.id case Add => None);
    Patient(id, f.firstName, f.lastName, f.dateOfBirth, f.medicalRecordNumber, if f.notes == "" then None else Some(f.notes))
  }

  /** The navigation title. */
  function Title(mode: FormMode): (t: string)
    ensures t == "Add Patient" <==> ModeEquals(mode, Add)
    ensures t == "Add Patient" || t == "Edit Patient"
  {
    if ModeEquals(mode, Add) then "Add Patient" else "Edit Patient"
  }

  /** Opening a patient for editing and saving without changes gives the
      patient back, except that notes "" come back as absent. */
  lemma {:induction false} EditRoundTrip(p: Patient, now: int)
    ensures BuildPatient(Edit(p), Prefill(Edit(p), now)) ==
      p.(notes := if p.notes == Some("") then None else p.notes)
  {
    var f := Prefill(Edit(p), now);
    match p.notes
    case None => assert f.notes == "";
    case Some(n) => assert f.notes == n;
  }

  /** A record the model's validation accepts always passes the form's own
      check. */
  lemma AcceptedRecordEnablesSave(p: Patient, now: int)
    ensures Validate(p, now).None? ==> IsValid(Prefill(Edit(p), now))
  {
    if Validate(p, now).None? {
      assert !IsBlank(p.firstName) && !IsBlank(p.lastName) && !IsBlank(p.medicalRecordNumber);
    }
  }

  /** The converse fails: the form enables Save for a first name of one
      space, which validation then rejects. */
  lemma BlankNameEnablesSave(now: int)
    ensures IsValid(Fields(" ", "Doe", now, "M1", ""))
    ensures Validate(BuildPatient(Add, Fields(" ", "Doe", now, "M1", "")), now) == Some(InvalidFirstName)
  {
    assert IsBlank(" ");
  }
}

=== FILE: list_model.dfy ===
/** The list screen's bookkeeping (ToDo/ViewModels/PatientListViewModel.swift):
    the displayed patients, the alert raised by a database error, and the
    effects of loading, adding, deleting and exporting on that state. */
module ListModel {
  import opened Base
  import opened Decimal
  import opened Patients
  import opened Store
  import DB = Store

  /** The view model's published state. */
  datatype ListState = ListState(
    patients: seq<Patient>,
    showAlert: bool,
    alertMessage: string,
    isAddButtonDisabled: bool,
    errorMessage: Option<string>)

  const InitialList: ListState := ListState([], false, "", false, None)

  /** The alert shown for every database error reported to the view model. */
  const WrongKeyAlert: string := "Encryption key is wrong. We are not able to access this database."

  /** `didEncounterDatabaseError`: raise the alert, disable adding and clear
      the list. */
  function DidEncounterDatabaseError(s: ListState): (r: ListState)
    ensures r.showAlert && r.isAddButtonDisabled && r.patients == []
    ensures r.alertMessage == WrongKeyAlert
    ensures r.errorMessage == s.errorMessage
  {
    s.(alertMessage := WrongKeyAlert, showAlert := true, isAddButtonDisabled := true, patients := [])
  }

  /** `loadPatients`: show the store's rows and re-enable adding, or report
      the failure as a database error. */
  function LoadPatients(s: ListState, st: Store, readFault: Option<StoreError>): (r: ListState)
    ensures DB.LoadPatients(st, readFault).Ok? ==>
      r == s.(patients := st.db.records, isAddButtonDisabled := false)
    ensures DB.LoadPatients(st, readFault).Err? ==> r == DidEncounterDatabaseError(s)
    ensures st.pool.None? ==> r.showAlert && r.patients == []
  {
    match DB.LoadPatients(st, readFault)
    case Ok(ps) => s.(patients := ps, isAddButtonDisabled := false)
    case Err(_) => DidEncounterDatabaseError(s)
  }

  /** `init()`: register as the manager's delegate, then load. Registration
      changes no published state, so the screen starts as a load from the
      empty state. */
  function Launch(st: Store, readFault: Option<StoreError>): (r: ListState)
    ensures st.pool.Some? && readFault.None? ==>
      r.patients == st.db.records && !r.showAlert && !r.isAddButtonDisabled
    ensures st.pool.None? || readFault.Some? ==>
      r.showAlert && r.alertMessage == WrongKeyAlert && r.isAddButtonDisabled && r.patients == []
  {
    LoadPatients(InitialList, st, readFault)
  }

  /** A fault while the manager first opens the store reaches no delegate,
      yet the screen still shows the alert: its first load finds no pool. */
  lemma StartupFaultAlerts(fs: map<Path, Bytes>, env: OpenEnv, readFault: Option<StoreError>)
    ensures !OpensCleanly(env) ==>
      var r := Launch(DB.Initial(fs, env).store, readFault);
      r.showAlert && r.alertMessage == WrongKeyAlert && r.isAddButtonDisabled
    ensures OpensCleanly(env) && readFault.None? ==>
      Launch(DB.Initial(fs, env).store, readFault).patients == env.image.value.records
  {
    var st := DB.Initial(fs, env).store;
    if OpensCleanly(env) {
      assert st.db == Migrate(env.image.value, env.now);
    }
  }

  /** The list state and the store after an action. */
  datatype Step = Step(list: ListState, store: Store)

  /** `addPatient`: save through the store and append what it returns; on
      failure nothing changes. */
  function AddPatient(s: ListState, st: Store, p: Patient, serverTime: Option<int64>, localNow: int64): (r: Step)
    ensures DB.SavePatient(st, p, serverTime, localNow).result.Ok? ==>
      r.list == s.(patients := s.patients + [p]) && r.store == DB.SavePatient(st, p, serverTime, localNow).store
    ensures DB.SavePatient(st, p, serverTime, localNow).result.Err? ==> r == Step(s, st)
    ensures |r.list.patients| <= |s.patients| + 1
    ensures r.list.patients[..|s.patients|] == s.patients
  {
    var o := DB.SavePatient(st, p, serverTime, localNow);
    match o.result
    case Ok(saved) => Step(s.(patients := s.patients + [saved]), o.store)
    case Err(_) => Step(s, st)
  }

  /** `ps` without the element at `i`. */
  function RemoveAt(ps: seq<Patient>, i: nat): (r: seq<Patient>)
    requires i < |ps|
    ensures |r| == |ps| - 1
    ensures forall j :: 0 <= j < i ==> r[j] == ps[j]
    ensures forall j :: i <= j < |r| ==> r[j] == ps[j + 1]
  {
    ps[..i] + ps[i + 1..]
  }

  /** `deletePatient`: find the first row with the same id; delete it in the
      store and only then drop it from the list. */
  function DeletePatient(s: ListState, st: Store, p: Patient, serverTime: Option<int64>, localNow: int64): (r: Step)
    ensures IndexOfId(s.patients, p.id).None? ==> r == Step(s, st)
    ensures IndexOfId(s.patients, p.id).Some? ==>
      var i := IndexOfId(s.patients, p.id).value;
      var o := DB.DeletePatient(st, s.patients[i], serverTime, localNow);
      && (o.result.Ok? ==> r == Step(s.(patients := RemoveAt(s.patients, i)), o.store))
      && (o.result.Err? ==> r == Step(s, st))
    ensures |r.list.patients| >= |s.patients| - 1
  {
    match IndexOfId(s.patients, p.id)
    case None => Step(s, st)
    case Some(i) =>
      var o := DB.DeletePatient(st, s.patients[i], serverTime, localNow);
      if o.result.Ok? then Step(s.(patients := RemoveAt(s.patients, i)), o.store) else Step(s, st)
  }

  /** `exportDatabase`: a failure is shown as "Export failed: " and its
      description. */
  function ExportDatabase(s: ListState, st: Store, env: ExportEnv): (r: Step)
    ensures ExportSucceeds(st, env) ==> r.list == s
    ensures !ExportSucceeds(st, env) ==>
      r.list == s.(errorMessage := Some("Export failed: " + Describe(ExportToDocuments(st, env).result.error)))
    ensures r.store == ExportToDocuments(st, env).store
    ensures r.list.patients == s.patients
  {
    var o := ExportToDocuments(st, env);
    match o.result
    case Ok(_) => Step(s, o.store)
    case Err(e) => Step(s.(errorMessage := Some("Export failed: " + Describe(e))), o.store)
  }

  // ---------------------------------------------------------------------
  // Deleting by offsets

  /** The store accepts deletions: a pool, the patients table and the
      metadata row. */
  predicate Writable(st: Store) {
    st.pool.Some? && PatientsTable in st.db.tables && st.db.info.Some?
  }

  lemma DeleteKeepsWritable(st: Store, p: Patient, serverTime: Option<int64>, localNow: int64)
    requires Writable(st)
    ensures DB.DeletePatient(st, p, serverTime, localNow).result.Ok?
    ensures Writable(DB.DeletePatient(st, p, serverTime, localNow).store)
  {
  }

  /** One iteration of the offsets loop: delete the row shown at `i`, and
      drop it from the list if the store delete succeeded. */
  function DeleteStep(s: ListState, st: Store, i: nat, serverTime: Option<int64>, localNow: int64): (r: Step)
    requires i < |s.patients|
    ensures Writable(st) ==> r.list == s.(patients := RemoveAt(s.patients, i)) && Writable(r.store)
    ensures !Writable(st) ==> r.list == s
  {
    var o := DB.DeletePatient(st, s.patients[i], serverTime, localNow);
    assert Writable(st) ==> o.result.Ok? && Writable(o.store) by {
      if Writable(st) { DeleteKeepsWritable(st, s.patients[i], serverTime, localNow); }
    }
    if o.result.Ok? then Step(s.(patients := RemoveAt(s.patients, i)), o.store) else Step(s, st)
  }

  /** Offsets as an `IndexSet` yields them: ascending, without repeats. */
  predicate Ascending(offsets: seq<nat>) {
    forall a, b :: 0 <= a < b < |offsets| ==> offsets[a] < offsets[b]
  }

  /** `deletePatients(at:)` as written: visit the offsets in ascending order
      and use each against the list as it stands after the earlier removals.
      `None` is the out-of-range trap. */
  function DeleteAtAsWritten(s: ListState, st: Store, offsets: seq<nat>, serverTime: Option<int64>, localNow: int64): (r: Option<Step>)
    requires Ascending(offsets)
    ensures |offsets| == 0 ==> r == Some(Step(s, st))
    ensures |offsets| > 0 && offsets[0] >= |s.patients| ==> r.None?
    decreases |offsets|
  {
    if |offsets| == 0 then Some(Step(s, st))
    else if offsets[0] >= |s.patients| then None
    else
      var first := DeleteStep(s, st, offsets[0], serverTime, localNow);
      DeleteAtAsWritten(first.list, first.store, offsets[1..], serverTime, localNow)
  }

  /** The rows of `ps` whose positions are not in `gone`, in order: what a
      swipe over the positions `gone` means to remove. */
  function Without(ps: seq<Patient>, gone: set<nat>): (r: seq<Patient>)
    ensures |r| <= |ps|
  {
    if |ps| == 0 then []
    else Without(ps[..|ps| - 1], gone) + (if |ps| - 1 in gone then [] else [ps[|ps| - 1]])
  }

  /** With one offset the loop removes exactly the row shown there. */
  lemma SingleOffsetRemovesThatRow(s: ListState, st: Store, i: nat, serverTime: Option<int64>, localNow: int64)
    requires Writable(st) && i < |s.patients|
    ensures DeleteAtAsWritten(s, st, [i], serverTime, localNow).Some?
    ensures DeleteAtAsWritten(s, st, [i], serverTime, localNow).value.list.patients == RemoveAt(s.patients, i)
  {
    var first := DeleteStep(s, st, i, serverTime, localNow);
    assert [i][1..] == [];
  }

  /** Two offsets: after removing row 0 the rows shift, so offset 1 names the
      old row 2. Swiping rows 0 and 1 of [a, b, c] keeps b, not c. */
  lemma AsWrittenDeletesWrongRow(s: ListState, st: Store, a: Patient, b: Patient, c: Patient,
                                 serverTime: Option<int64>, localNow: int64)
    requires Writable(st) && s.patients == [a, b, c] && b != c
    ensures DeleteAtAsWritten(s, st, [0, 1], serverTime, localNow).Some?
    ensures DeleteAtAsWritten(s, st, [0, 1], serverTime, localNow).value.list.patients == [b]
    ensures Without(s.patients, {0, 1}) == [c]
  {
    var one := DeleteStep(s, st, 0, serverTime, localNow);
    assert one.list.patients == [b, c];
    var two := DeleteStep(one.list, one.store, 1, serverTime, localNow);
    assert two.list.patients == [b];
    assert [0, 1][1..] == [1];
    assert [1][1..] == [];
    SwipeFirstTwoMeansLast(a, b, c);
  }

  /** Swiping positions 0 and 1 of [a, b, c] means keeping c. */
  lemma SwipeFirstTwoMeansLast(a: Patient, b: Patient, c: Patient)
    ensures Without([a, b, c], {0, 1}) == [c]
  {
    var ps := [a, b, c];
    var g: set<nat> := {0, 1};
    assert ps[..2] == [a, b] && [a, b][..1] == [a] && [a][..0] == [];
    assert Without([a], g) == [];
    assert Without([a, b], g) == [];
  }

  /** Swiping rows 0 and 2 of a three-row list traps: after the first
      removal only two rows are left. */
  lemma AsWrittenTrapsOnLastOffset(s: ListState, st: Store, serverTime: Option<int64>, localNow: int64)
    requires Writable(st) && |s.patients| == 3
    ensures DeleteAtAsWritten(s, st, [0, 2], serverTime, localNow).None?
  {
    var one := DeleteStep(s, st, 0, serverTime, localNow);
    assert |one.list.patients| == 2;
    assert [0, 2][1..] == [2];
  }

  /** On a writable store the loop as written traps exactly when some offset,
      once the rows removed before it have shifted the list, lies past its
      end: the `k`-th offset is used against a list `k` rows shorter.
      Otherwise every swiped row count is removed. */
  lemma {:induction false} AsWrittenTrapCondition(s: ListState, st: Store, offsets: seq<nat>,
                                                  serverTime: Option<int64>, localNow: int64)
    requires Ascending(offsets) && Writable(st)
    ensures DeleteAtAsWritten(s, st, offsets, serverTime, localNow).Some? <==>
      forall k :: 0 <= k < |offsets| ==> offsets[k] + k < |s.patients|
    ensures DeleteAtAsWritten(s, st, offsets, serverTime, localNow).Some? ==>
      |DeleteAtAsWritten(s, st, offsets, serverTime, localNow).value.list.patients| == |s.patients| - |offsets|
    decreases |offsets|
  {
    if |offsets| > 0 && offsets[0] < |s.patients| {
      var first := DeleteStep(s, st, offsets[0], serverTime, localNow);
      var rest := offsets[1..];
      assert Ascending(rest);
      AsWrittenTrapCondition(first.list, first.store, rest, serverTime, localNow);
      assert |first.list.patients| == |s.patients| - 1;
      assert (forall k :: 0 <= k < |rest| ==> rest[k] + k < |first.list.patients|) <==>
             (forall k :: 1 <= k < |offsets| ==> offsets[k] + k < |s.patients|) by {
        forall k | 1 <= k < |offsets| ensures rest[k - 1] == offsets[k] { }
      }
    }
  }

  /** `deletePatients(at:)` corrected: visit the offsets in descending
      order, so that every removal leaves the lower positions in place. */
  function DeleteAt(s: ListState, st: Store, offsets: seq<nat>, serverTime: Option<int64>, localNow: int64): (r: Step)
    requires Ascending(offsets)
    requires forall k :: 0 <= k < |offsets| ==> offsets[k] < |s.patients|
    ensures !Writable(st) ==> r.list == s
    ensures Writable(st) ==> Writable(r.store)
    ensures Writable(st) ==> r.list == s.(patients := Without(s.patients, set k | 0 <= k < |offsets| :: offsets[k]))
    decreases |offsets|
  {
    var gone := set k | 0 <= k < |offsets| :: offsets[k];
    if |offsets| == 0 then
      assert gone == {};
      WithoutNothing(s.patients);
      Step(s, st)
    else
      var m := offsets[|offsets| - 1];
      var rest := offsets[..|offsets| - 1];
      var restGone := set k | 0 <= k < |rest| :: rest[k];
      var last := DeleteStep(s, st, m, serverTime, localNow);
      assert forall k :: 0 <= k < |rest| ==> rest[k] < m;
      assert gone == restGone + {m} by {
        forall x | x in gone ensures x in restGone + {m} {
          var k :| 0 <= k < |offsets| && offsets[k] == x;
          if k < |rest| { assert rest[k] == x; }
        }
      }
      if Writable(st) then
        WithoutRemoveAt(s.patients, m, restGone);
        DeleteAt(last.list, last.store, rest, serverTime, localNow)
      else
        assert last.list == s;
        DeleteAt(last.list, last.store, rest, serverTime, localNow)
  }

  lemma {:induction false} WithoutNothing(ps: seq<Patient>)
    ensures Without(ps, {}) == ps
  {
    if |ps| > 0 {
      WithoutNothing(ps[..|ps| - 1]);
      assert ps == ps[..|ps| - 1] + [ps[|ps| - 1]];
    }
  }

  /** Positions at or beyond `|ps|` do not matter. */
  lemma {:induction false} WithoutAppend(ps: seq<Patient>, tail: seq<Patient>, gone: set<nat>)
    requires forall x :: x in gone ==> x < |ps|
    ensures Without(ps + tail, gone) == Without(ps, gone) + tail
    decreases |tail|
  {
    if |tail| > 0 {
      var whole := ps + tail;
      assert whole[..|whole| - 1] == ps + tail[..|tail| - 1];
      assert whole[|whole| - 1] == tail[|tail| - 1];
      WithoutAppend(ps, tail[..|tail| - 1], gone);
      assert tail == tail[..|tail| - 1] + [tail[|tail| - 1]];
    } else {
      assert ps + tail == ps;
    }
  }

  /** Removing the row at `m`, then the rows at positions below `m`, is
      removing all of them at once. */
  lemma WithoutRemoveAt(ps: seq<Patient>, m: nat, gone: set<nat>)
    requires m < |ps|
    requires forall x :: x in gone ==> x < m
    ensures Without(RemoveAt(ps, m), gone) == Without(ps, gone + {m})
  {
    var front := ps[..m];
    var back := ps[m + 1..];
    assert RemoveAt(ps, m) == front + back;
    WithoutAppend(front, back, gone);
    var upto := ps[..m + 1];
    assert upto[..m] == front;
    assert Without(upto, gone + {m}) == Without(front, gone + {m});
    WithoutSameBelow(front, gone, gone + {m});
    assert ps == upto + back;
    WithoutAppend(upto, back, gone + {m});
  }

  /** Only the positions below `|ps|` matter. */
  lemma {:induction false} WithoutSameBelow(ps: seq<Patient>, g1: set<nat>, g2: set<nat>)
    requires forall x: nat :: x < |ps| ==> (x in g1 <==> x in g2)
    ensures Without(ps, g1) == Without(ps, g2)
  {
    if |ps| > 0 {
      WithoutSameBelow(ps[..|ps| - 1], g1, g2);
    }
  }
}

=== FILE: patients.dfy ===
/** The patient record, its validation rules and its display name
    (ToDo/Model/Patient.swift). Dates are whole seconds since the epoch. */
module Patients {
  import opened Base
  import opened Text

  /** A patient row. `id` is absent until the store has persisted it. */
  datatype Patient = Patient(
    id: Option<int>,
    firstName: string,
    lastName: string,
    dateOfBirth: int,
    medicalRecordNumber: string,
    notes: Option<string>)

  /** The validation failures, in the order the checks run. */
  datatype PatientError =
    | InvalidFirstName
    | InvalidLastName
    | InvalidMedicalRecordNumber
    | InvalidDateOfBirth

  /** The user-facing text of each validation failure. */
  function ErrorDescription(e: PatientError): (r: string)
    ensures r == "First name cannot be empty" <==> e == InvalidFirstName
    ensures r == "Last name cannot be empty" <==> e == InvalidLastName
    ensures r == "Medical record number must be valid" <==> e == InvalidMedicalRecordNumber
    ensures r == "Date of birth cannot be in the future" <==> e == InvalidDateOfBirth
  {
    match e
    case InvalidFirstName => "First name cannot be empty"
    case InvalidLastName => "Last name cannot be empty"
    case InvalidMedicalRecordNumber => "Medical record number must be valid"
    case InvalidDateOfBirth => "Date of birth cannot be in the future"
  }

  /** The record is acceptable: three non-blank texts and a birth date that
      is not after `now`. */
  predicate Acceptable(p: Patient, now: int) {
    && !IsBlank(p.firstName)
    && !IsBlank(p.lastName)
    && !IsBlank(p.medicalRecordNumber)
    && p.dateOfBirth <= now
  }

  /** `validate()`: the first failing check wins; `None` means valid. The
      source trims whitespace and newlines and tests for emptiness; the
      contract states the same through `IsBlank`. */
  function Validate(p: Patient, now: int): (r: Option<PatientError>)
    ensures r == Some(InvalidFirstName) <==> IsBlank(p.firstName)
    ensures r == Some(InvalidLastName) <==> !IsBlank(p.firstName) && IsBlank(p.lastName)
    ensures r == Some(InvalidMedicalRecordNumber) <==>
      !IsBlank(p.firstName) && !IsBlank(p.lastName) && IsBlank(p.medicalRecordNumber)
    ensures r == Some(InvalidDateOfBirth) <==>
      !IsBlank(p.firstName) && !IsBlank(p.lastName) && !IsBlank(p.medicalRecordNumber)
      && p.dateOfBirth > now
    ensures r.None? <==> Acceptable(p, now)
  {
    if Trim(p.firstName) == [] then Some(InvalidFirstName)
    else if Trim(p.lastName) == [] then Some(InvalidLastName)
    else if Trim(p.medicalRecordNumber) == [] then Some(InvalidMedicalRecordNumber)
    else if !(p.dateOfBirth <= now) then Some(InvalidDateOfBirth)
    else None
  }

  /** Notes and id never take part in validation. */
  lemma ValidateIgnoresNotesAndId(p: Patient, notes: Option<string>, id: Option<int>, now: int)
    ensures Validate(p.(notes := notes, id := id), now) == Validate(p, now)
  {
  }

  /** `fullName`: first name, one space, last name. */
  function FullName(p: Patient): (r: string)
    ensures |r| == |p.firstName| + 1 + |p.lastName|
    ensures r[..|p.firstName|] == p.firstName && r[|p.firstName|] == ' ' && r[|p.firstName| + 1..] == p.lastName
  {
    p.firstName + " " + p.lastName
  }

  /** The position of the first space in `s`, if any. */
  function FirstSpace(s: string): (r: Option<nat>)
    ensures r.Some? ==> r.value < |s| && s[r.value] == ' '
    ensures r.Some? ==> forall j :: 0 <= j < r.value ==> s[j] != ' '
    ensures r.None? ==> forall j :: 0 <= j < |s| ==> s[j] != ' '
  {
    if |s| == 0 then None
    else if s[0] == ' ' then Some(0)
    else
      match FirstSpace(s[1..])
      case None => None
      case Some(k) => Some(k + 1)
  }

  /** A first name without spaces is recovered from the full name by splitting
      at its first space, and the rest is the last name. */
  lemma FullNameSplits(p: Patient)
    requires ' ' !in p.firstName
    ensures FirstSpace(FullName(p)) == Some(|p.firstName|)
    ensures FullName(p)[..|p.firstName|] == p.firstName
    ensures FullName(p)[|p.firstName| + 1..] == p.lastName
  {
    var s := FullName(p);
    var k := |p.firstName|;
    assert s[..k] == p.firstName;
    assert forall j :: 0 <= j < k ==> s[j] == p.firstName[j];
    assert s[k] == ' ' && s[k] in s;
  }

  /** `firstIndex(where: { $0.id == id })`: the first record carrying `id`. */
  function IndexOfId(rs: seq<Patient>, id: Option<int>): (r: Option<nat>)
    ensures r.Some? ==> r.value < |rs| && rs[r.value].id == id
    ensures r.Some? ==> forall j :: 0 <= j < r.value ==> rs[j].id != id
    ensures r.None? ==> forall j :: 0 <= j < |rs| ==> rs[j].id != id
  {
    if |rs| == 0 then None
    else if rs[0].id == id then Some(0)
    else
      match IndexOfId(rs[1..], id)
      case None => None
      case Some(k) => Some(k + 1)
  }
}

=== FILE: preview_drive.dfy ===
/** The in-memory Drive client used for previews
    (ToDo/Refactoring/Dependencies.swift, `previewValue`): a list of files
    and a signed-in flag, with the operations the client offers. It is the
    abstract model of the remote store. Clocks, UUIDs and random numbers are
    parameters. */
module PreviewDrive {
  import opened Base
  import opened Decimal

  /** A Drive file as the client library describes it. */
  datatype RemoteFile = RemoteFile(
    id: string,
    mimeType: string,
    name: string,
    createdTime: int,
    modifiedTime: int)

  /** The remote store: its files, newest first, and the sign-in flag. */
  datatype Remote = Remote(files: seq<RemoteFile>, isSignedIn: bool)

  /** A page of a listing. */
  datatype FilesList = FilesList(nextPageToken: Option<string>, incompleteSearch: bool, files: seq<RemoteFile>)

  /** The HTTP status the client throws for an unknown id. */
  const NotFoundStatus: int := 404

  const PreviewMime: string := "text/plain"

  function PreviewFile(id: string, name: string, now: int): RemoteFile {
    RemoteFile(id, PreviewMime, name, now, now)
  }

  /** The store a preview starts with: three text files, signed out. */
  function Initial(now: int): (r: Remote)
    ensures !r.isSignedIn && |r.files| == 3
    ensures r.files[0].id == "preview-1" && r.files[1].id == "preview-2" && r.files[2].id == "preview-3"
    ensures forall i :: 0 <= i < |r.files| ==> r.files[i].mimeType == PreviewMime
  {
    Remote([PreviewFile("preview-1", "preview1.txt", now),
            PreviewFile("preview-2", "preview2.txt", now),
            PreviewFile("preview-3", "preview3.txt", now)], false)
  }

  function SignIn(r: Remote): (q: Remote)
    ensures q.isSignedIn && q.files == r.files
  {
    r.(isSignedIn := true)
  }

  function SignOut(r: Remote): (q: Remote)
    ensures !q.isSignedIn && q.files == r.files
  {
    r.(isSignedIn := false)
  }

  /** `listFiles`: everything, in one complete page; the query is ignored. */
  function ListFiles(r: Remote): (l: FilesList)
    ensures l.files == r.files && l.nextPageToken.None? && !l.incompleteSearch
  {
    FilesList(None, false, r.files)
  }

  /** Some file in the list carries `id`. */
  predicate HasId(files: seq<RemoteFile>, id: string) {
    exists i :: 0 <= i < |files| && files[i].id == id
  }

  /** `first(where: { $0.id == id })`. */
  function FirstWithId(files: seq<RemoteFile>, id: string): (r: Option<RemoteFile>)
    ensures r.Some? <==> HasId(files, id)
    ensures r.Some? ==> r.value.id == id
    ensures r.Some? ==>
      exists i :: 0 <= i < |files| && files[i] == r.value && (forall j :: 0 <= j < i ==> files[j].id != id)
  {
    if |files| == 0 then None
    else if files[0].id == id then Some(files[0])
    else
      var rest := FirstWithId(files[1..], id);
      assert HasId(files, id) ==> HasId(files[1..], id) by {
        if HasId(files, id) {
          var i :| 0 <= i < |files| && files[i].id == id;
          assert files[1..][i - 1].id == id;
        }
      }
      if rest.Some? then
        var i :| 0 <= i < |files[1..]| && files[1..][i] == rest.value && (forall j :: 0 <= j < i ==> files[1..][j].id != id);
        assert files[i + 1] == rest.value;
        rest
      else rest
  }

  /** `getFile`: the first file with the id, or a 404. */
  function GetFile(r: Remote, id: string): (g: Result<RemoteFile, int>)
    ensures g.Ok? <==> HasId(r.files, id)
    ensures g.Ok? ==> g.value.id == id && g.value in r.files
    ensures g.Ok? ==> exists i :: 0 <= i < |r.files| && r.files[i] == g.value && (forall j :: 0 <= j < i ==> r.files[j].id != id)
    ensures g.Err? ==> g.error == NotFoundStatus
  {
    match FirstWithId(r.files, id)
    case Some(f) => Ok(f)
    case None => Err(NotFoundStatus)
  }

  /** `getFileData`: a fixed text naming the file, whether or not it exists
      (its UTF-8 encoding is left to the caller). */
  function GetFileData(id: string): (t: string)
    ensures |t| == 17 + |id| && t[17..] == id
    ensures t[..17] == "Content of file: "
  {
    "Content of file: " + id
  }

  /** The id `createFile` gives a file made with UUID text `uuid`. */
  function CreatedId(uuid: string): string {
    "preview-" + uuid
  }

  /** `createFile`: a new text file named "preview" plus a three-digit
      number, put in front of the others. */
  function CreateFile(r: Remote, uuid: string, n: nat, now: int): (q: Remote)
    requires 100 <= n <= 999
    ensures |q.files| == |r.files| + 1 && q.files[1..] == r.files
    ensures q.files[0].id == CreatedId(uuid) && q.files[0].mimeType == PreviewMime
    ensures |q.files[0].name| == 10 && q.files[0].name[..7] == "preview"
    ensures AllDigits(q.files[0].name[7..]) && DigitsValue(q.files[0].name[7..]) == n
    ensures q.isSignedIn == r.isSignedIn
  {
    var digits := NatDigits(n);
    assert |digits| == 3 by { NatDigitsLength3(n); }
    var name := "preview" + digits;
    assert name[7..] == digits;
    NatDigitsValue(n);
    r.(files := [PreviewFile(CreatedId(uuid), name, now)] + r.files)
  }

  lemma NatDigitsLength3(n: nat)
    requires 100 <= n <= 999
    ensures |NatDigits(n)| == 3
  {
    assert NatDigits(n) == NatDigits(n / 10) + [DigitChar(n % 10)];
    assert NatDigits(n / 10) == NatDigits(n / 100) + [DigitChar((n / 10) % 10)];
  }

  /** Replace every file whose id is `f.id` by `f`. */
  function ReplaceById(files: seq<RemoteFile>, f: RemoteFile): (r: seq<RemoteFile>)
    ensures |r| == |files|
    ensures forall i :: 0 <= i < |r| ==> r[i] == if files[i].id == f.id then f else files[i]
  {
    seq(|files|, i requires 0 <= i < |files| => if files[i].id == f.id then f else files[i])
  }

  /** `updateFileData`: a 404 for an unknown id; otherwise the first match,
      stamped `now`, replaces every file with that id. */
  function UpdateFileData(r: Remote, id: string, now: int): (u: Result<(Remote, RemoteFile), int>)
    ensures u.Err? <==> !HasId(r.files, id)
    ensures u.Err? ==> u.error == NotFoundStatus
    ensures u.Ok? ==> u.value.1.id == id && u.value.1.modifiedTime == now
    ensures u.Ok? ==> u.value.1 == FirstWithId(r.files, id).value.(modifiedTime := now)
    ensures u.Ok? ==> |u.value.0.files| == |r.files| && u.value.0.isSignedIn == r.isSignedIn
    ensures u.Ok? ==> forall i :: 0 <= i < |r.files| ==>
      u.value.0.files[i] == if r.files[i].id == id then u.value.1 else r.files[i]
  {
    match FirstWithId(r.files, id)
    case None => Err(NotFoundStatus)
    case Some(f) =>
      var g := f.(modifiedTime := now);
      Ok((r.(files := ReplaceById(r.files, g)), g))
  }

  /** Keep the files whose id is not `id`, in order. */
  function DropId(files: seq<RemoteFile>, id: string): (r: seq<RemoteFile>)
    ensures |r| <= |files|
    ensures forall x :: x in r <==> x in files && x.id != id
    ensures !HasId(files, id) ==> r == files
    ensures SubsequenceOf(r, files)
  {
    if |files| == 0 then []
    else
      var rest := DropId(files[1..], id);
      assert !HasId(files, id) ==> !HasId(files[1..], id) by {
        if HasId(files[1..], id) {
          var i :| 0 <= i < |files[1..]| && files[1..][i].id == id;
          assert files[i + 1].id == id;
        }
      }
      assert files == [files[0]] + files[1..];
      if files[0].id == id then
        assert |rest| > 0 ==> rest[0] in rest;
        rest
      else
        assert ([files[0]] + rest)[1..] == rest;
        [files[0]] + rest
  }

  /** `deleteFile`: drop every file with the id; an unknown id is no error. */
  function DeleteFile(r: Remote, id: string): (q: Remote)
    ensures forall x :: x in q.files <==> x in r.files && x.id != id
    ensures forall x :: multiset(q.files)[x] == if x.id == id then 0 else multiset(r.files)[x]
    ensures SubsequenceOf(q.files, r.files)
    ensures !HasId(r.files, id) ==> q == r
    ensures q.isSignedIn == r.isSignedIn
  {
    DropIdCounts(r.files, id);
    r.(files := DropId(r.files, id))
  }

  /** Dropping an id keeps every copy of every other file. */
  lemma {:induction false} DropIdCounts(files: seq<RemoteFile>, id: string)
    ensures forall x :: multiset(DropId(files, id))[x] == if x.id == id then 0 else multiset(files)[x]
  {
    if |files| > 0 {
      DropIdCounts(files[1..], id);
      assert files == [files[0]] + files[1..];
      assert multiset(files) == multiset{files[0]} + multiset(files[1..]);
    }
  }

  /** Deleting twice is deleting once. */
  lemma DeleteIdempotent(r: Remote, id: string)
    ensures DeleteFile(DeleteFile(r, id), id) == DeleteFile(r, id)
  {
  }

  /** A file just created is what `getFile` returns for its id. */
  lemma CreatedFileIsFound(r: Remote, uuid: string, n: nat, now: int)
    requires 100 <= n <= 999
    ensures GetFile(CreateFile(r, uuid, n, now), CreatedId(uuid)) == Ok(CreateFile(r, uuid, n, now).files[0])
  {
  }

  /** Creating a file under a fresh id and then deleting it restores the
      store. */
  lemma {:induction false} CreateThenDeleteRestores(r: Remote, uuid: string, n: nat, now: int)
    requires 100 <= n <= 999
    requires !HasId(r.files, CreatedId(uuid))
    ensures DeleteFile(CreateFile(r, uuid, n, now), CreatedId(uuid)) == r
  {
    var q := CreateFile(r, uuid, n, now);
    assert q.files[1..] == r.files;
    assert DropId(q.files, CreatedId(uuid)) == DropId(r.files, CreatedId(uuid));
  }

  /** After an update, `getFile` finds the stamped file. */
  lemma UpdatedFileIsFound(r: Remote, id: string, now: int)
    requires HasId(r.files, id)
    ensures UpdateFileData(r, id, now).Ok?
    ensures GetFile(UpdateFileData(r, id, now).value.0, id) == Ok(UpdateFileData(r, id, now).value.1)
  {
    var u := UpdateFileData(r, id, now).value;
    var i :| 0 <= i < |r.files| && r.files[i].id == id;
    assert u.0.files[i] == u.1;
    var found := FirstWithId(u.0.files, id);
    var k :| 0 <= k < |u.0.files| && u.0.files[k] == found.value && (forall j :: 0 <= j < k ==> u.0.files[j].id != id);
    assert r.files[k].id == id;
  }
}

=== FILE: repository.dfy ===
/** The repository in front of the store (ToDo/Model/PatientRepository.swift):
    validation before saving, forwarding of the other operations, and the
    case-insensitive search over the loaded patients. */
module Repository {
  import opened Base
  import opened Text
  import opened Decimal
  import opened Patients
  import opened Store
  import DB = Store

  /** What a repository call can throw: the record's own validation error or
      whatever the store throws. */
  datatype RepoError = Invalid(invalid: PatientError) | Failed(failed: StoreError)

  /** The store after a repository call, and what the call returned or threw. */
  datatype RepoOutcome<T> = RepoOutcome(store: Store, result: Result<T, RepoError>)

  function Lift<T>(o: Outcome<T>): (r: RepoOutcome<T>)
    ensures r.store == o.store
    ensures r.result.Ok? <==> o.result.Ok?
    ensures r.result.Ok? ==> r.result.value == o.result.value
    ensures r.result.Err? ==> r.result.error == Failed(o.result.error)
  {
    match o.result
    case Ok(v) => RepoOutcome(o.store, Ok(v))
    case Err(e) => RepoOutcome(o.store, Err(Failed(e)))
  }

  /** `savePatient`: validate against the clock `now`, then save. An invalid
      record never reaches the store. */
  function SavePatient(st: Store, p: Patient, now: int, serverTime: Option<int64>, localNow: int64): (r: RepoOutcome<Patient>)
    ensures Validate(p, now).Some? ==> r == RepoOutcome(st, Err(Invalid(Validate(p, now).value)))
    ensures r.result.Ok? <==> Acceptable(p, now) && DB.SavePatient(st, p, serverTime, localNow).result.Ok?
    ensures r.result.Ok? ==> r.result.value == p
    ensures r.result.Ok? ==> r.store.db.records == SaveRow(st.db, p).value.records
    ensures r.result.Err? ==> r.store == st
    ensures Acceptable(p, now) ==> r.store == DB.SavePatient(st, p, serverTime, localNow).store
    ensures Acceptable(p, now) && r.result.Err? ==>
      r.result.error == Failed(DB.SavePatient(st, p, serverTime, localNow).result.error)
  {
    match Validate(p, now)
    case Some(e) => RepoOutcome(st, Err(Invalid(e)))
    case None =>
      Lift(DB.SavePatient(st, p, serverTime, localNow))
  }

  /** `deletePatient`: forwarded unchanged. */
  function DeletePatient(st: Store, p: Patient, serverTime: Option<int64>, localNow: int64): (r: RepoOutcome<()>)
    ensures r.store == DB.DeletePatient(st, p, serverTime, localNow).store
    ensures r.result.Ok? <==> DB.DeletePatient(st, p, serverTime, localNow).result.Ok?
    ensures r.result.Ok? && p.id.Some? ==> forall x :: x in r.store.db.records ==> x.id != p.id
    ensures r.result.Err? ==> r.store == st
    ensures r.result.Err? ==> r.result.error == Failed(DB.DeletePatient(st, p, serverTime, localNow).result.error)
  {
    Lift(DB.DeletePatient(st, p, serverTime, localNow))
  }

  /** `loadPatients`: the store's rows, or its error. */
  function LoadPatients(st: Store, readFault: Option<StoreError>): (r: Result<seq<Patient>, RepoError>)
    ensures r.Ok? <==> st.pool.Some? && readFault.None?
    ensures r.Ok? ==> r.value == st.db.records
    ensures st.pool.None? ==> r == Err(Failed(NotInitialized))
    ensures st.pool.Some? && readFault.Some? ==> r == Err(Failed(readFault.value))
  {
    match DB.LoadPatients(st, readFault)
    case Ok(ps) => Ok(ps)
    case Err(e) => Err(Failed(e))
  }

  /** `fetchPatient(id:)`: forwarded unchanged. */
  function FetchPatient(st: Store, id: int64, readFault: Option<StoreError>): (r: Result<Option<Patient>, RepoError>)
    ensures r.Ok? <==> st.pool.Some? && readFault.None?
    ensures r.Ok? && r.value.Some? ==> r.value.value in st.db.records && r.value.value.id == Some(id as int)
    ensures r.Ok? && r.value.None? ==> forall x :: x in st.db.records ==> x.id != Some(id as int)
    ensures r.Ok? ==> r.value == DB.FetchPatient(st, id as int, readFault).value
    ensures st.pool.None? ==> r == Err(Failed(NotInitialized))
    ensures st.pool.Some? && readFault.Some? ==> r == Err(Failed(readFault.value))
  {
    match DB.FetchPatient(st, id as int, readFault)
    case Ok(v) => Ok(v)
    case Err(e) => Err(Failed(e))
  }

  /** A patient matches an already lower-cased query when its lower-cased
      first name, last name or record number contains it. As with
      Foundation's `contains`, the empty query matches no patient. */
  predicate Matches(p: Patient, q: string) {
    || Contains(Lower(p.firstName), q)
    || Contains(Lower(p.lastName), q)
    || Contains(Lower(p.medicalRecordNumber), q)
  }

  /** The reference filter: the matching patients, in their original order. */
  function Matching(ps: seq<Patient>, q: string): (r: seq<Patient>)
    ensures |r| <= |ps|
    ensures forall x :: x in r <==> x in ps && Matches(x, q)
    ensures SubsequenceOf(r, ps)
  {
    if |ps| == 0 then []
    else
      var rest := Matching(ps[1..], q);
      assert ps == [ps[0]] + ps[1..];
      if Matches(ps[0], q) then
        assert ([ps[0]] + rest)[1..] == rest;
        [ps[0]] + rest
      else
        assert |rest| > 0 ==> rest[0] in rest;
        rest
  }

  /** The filter keeps every copy of a matching patient and no copy of any
      other. */
  lemma {:induction false} MatchingCounts(ps: seq<Patient>, q: string)
    ensures forall x :: multiset(Matching(ps, q))[x] == if Matches(x, q) then multiset(ps)[x] else 0
  {
    if |ps| > 0 {
      MatchingCounts(ps[1..], q);
      assert ps == [ps[0]] + ps[1..];
      assert multiset(ps) == multiset{ps[0]} + multiset(ps[1..]);
      MatchingStep(ps, 0, q);
    }
  }

  /** `searchPatients(query:)`: load, lower-case the query, keep the
      patients that match, in order. */
  method SearchPatients(st: Store, readFault: Option<StoreError>, query: string) returns (r: Result<seq<Patient>, RepoError>)
    ensures r.Ok? <==> st.pool.Some? && readFault.None?
    ensures st.pool.None? ==> r == Err(Failed(NotInitialized))
    ensures r.Ok? ==> r.value == Matching(st.db.records, Lower(query))
    ensures r.Ok? && |query| == 0 ==> r.value == []
  {
    var loaded := LoadPatients(st, readFault);
    if loaded.Err? {
      return Err(loaded.error);
    }
    var ps := loaded.value;
    var q := Lower(query);
    var found: seq<Patient> := [];
    var i := 0;
    while i < |ps|
      invariant 0 <= i <= |ps|
      invariant found + Matching(ps[i..], q) == Matching(ps, q)
    {
      MatchingStep(ps, i, q);
      if Matches(ps[i], q) {
        found := found + [ps[i]];
      }
      i := i + 1;
    }
    if |query| == 0 {
      assert q == [];
      EmptyQueryFindsNone(ps);
    }
    return Ok(found);
  }

  /** One step of the filter: the patient at `i` is kept exactly when it
      matches. */
  lemma MatchingStep(ps: seq<Patient>, i: nat, q: string)
    requires i < |ps|
    ensures Matching(ps[i..], q) == (if Matches(ps[i], q) then [ps[i]] else []) + Matching(ps[i + 1..], q)
  {
    assert ps[i..][1..] == ps[i + 1..];
  }

  /** The empty query keeps no patient. */
  lemma {:induction false} EmptyQueryFindsNone(ps: seq<Patient>)
    ensures Matching(ps, []) == []
  {
    if |ps| > 0 {
      EmptyQueryFindsNone(ps[1..]);
      MatchingStep(ps, 0, []);
    }
  }

  /** A query that is contained in an occurrence of a longer query is itself
      contained. */
  lemma ContainsShorter(s: string, q: string, q': string)
    requires |q| > 0 && IsPrefix(q, q') && Contains(s, q')
    ensures Contains(s, q)
  {
    ContainsHasPosition(s, q');
    var i: nat :| OccursAt(s, q', i);
    assert s[i..i + |q|] == s[i..i + |q'|][..|q|];
    ContainsAt(s, q, i);
  }

  /** Typing further characters only narrows the search: every patient a
      longer query finds, any non-empty prefix of it finds too. */
  lemma LongerQueryNarrows(ps: seq<Patient>, q: string, q': string)
    requires |q| > 0 && IsPrefix(q, q')
    ensures forall x :: x in Matching(ps, q') ==> x in Matching(ps, q)
  {
    forall x | x in Matching(ps, q')
      ensures Matches(x, q)
    {
      if Contains(Lower(x.firstName), q') {
        ContainsShorter(Lower(x.firstName), q, q');
      } else if Contains(Lower(x.lastName), q') {
        ContainsShorter(Lower(x.lastName), q, q');
      } else {
        ContainsShorter(Lower(x.medicalRecordNumber), q, q');
      }
    }
  }

  /** Every stored patient with a first name is found by it, however the
      query is cased. */
  lemma FoundByFirstName(ps: seq<Patient>, p: Patient, query: string)
    requires p in ps && |p.firstName| > 0
    requires Lower(query) == Lower(p.firstName)
    ensures p in Matching(ps, Lower(query))
  {
    var s := Lower(p.firstName);
    assert IsPrefix(s, s);
  }
}

=== FILE: store.dfy ===
/** The local store manager (ToDo/DatabaseManager.swift): the one connection
    pool on the encrypted store file, the migration, the single write path
    that stamps every mutation, the read paths, the export, the
    file-replacement protocol used by a pull, and the push decision.

    The storage engine is an input: opening the pool on a file yields the
    database image it holds (or the fault it raised), and migration, backup
    and file-system faults are parameters. Writes change the logical image
    `db`; how the engine encodes it into the file's bytes is not modelled. */
module Store {
  import opened Base
  import opened Patients
  import opened Decimal
  import opened DriveQuery
  import opened Text

  type Path = string

  /** The store file and its write-ahead-log and shared-memory side files. */
  const DbPath: Path := "PatientManager/db.sqlite"
  const WalPath: Path := "PatientManager/db.sqlite-wal"
  const ShmPath: Path := "PatientManager/db.sqlite-shm"
  /** Where an export lands (the documents directory). */
  const ExportPath: Path := "Documents/db.sqlite"
  const ExportName: string := "db.sqlite"
  const SqliteMime: string := "application/x-sqlite3"
  /** The search the push step uses to find the remote copy. */
  const RemoteSearch: string := "name contains 'db'"
  /** The property carrying the timestamp on the remote copy. */
  const TimestampKey: string := "lastModified"
  /** The metadata row the store reads and stamps. */
  const InfoRowId: int := 1
  const InitialVersion: string := "1.0"

  lemma PathsDistinct()
    ensures DbPath != WalPath && DbPath != ShmPath && WalPath != ShmPath
    ensures ExportPath != DbPath && ExportPath != WalPath && ExportPath != ShmPath
  {
    assert |DbPath| != |WalPath| && |DbPath| != |ShmPath|;
    assert WalPath[25] != ShmPath[25];
    assert ExportPath[0] != DbPath[0] && ExportPath[0] != WalPath[0] && ExportPath[0] != ShmPath[0];
  }

  // ---------------------------------------------------------------------
  // The database image

  datatype Table = PatientsTable | InfoTable

  /** A `dbinfo` row (ToDo/Model/Info.swift). */
  datatype DBInfo = DBInfo(id: Option<int>, lastModified: int64, dbVersion: Option<string>)

  /** What the store file holds: the tables created so far, the patient rows
      in row order, the `dbinfo` row with key 1 if there is one, and the
      largest row id ever handed out (SQLite's AUTOINCREMENT sequence). */
  datatype Db = Db(tables: set<Table>, records: seq<Patient>, info: Option<DBInfo>, sequence: int)

  const EmptyDb: Db := Db({}, [], None, 0)

  /** A live connection pool, opened with or without the passphrase. */
  datatype Conn = Conn(encrypted: bool)

  /** The manager: its pool (nil when setup failed or during a replacement),
      the encryption flag, the file system it works on, and the image the
      pool reads and writes. */
  datatype Store = Store(pool: Option<Conn>, encrypted: bool, fs: map<Path, Bytes>, db: Db)

  // ---------------------------------------------------------------------
  // Errors

  datatype DatabaseError = DatabaseNotInitialized | DbInfoNotFound | ReadFailed | InvalidConfiguration

  function DatabaseErrorDescription(e: DatabaseError): (r: string)
    ensures r == "Database has not been initialized" <==> e == DatabaseNotInitialized
    ensures r == "Database info not found" <==> e == DbInfoNotFound
    ensures r == "Failed to read from database" <==> e == ReadFailed
    ensures r == "Invalid database configuration" <==> e == InvalidConfiguration
  {
    match e
    case DatabaseNotInitialized => "Database has not been initialized"
    case DbInfoNotFound => "Database info not found"
    case ReadFailed => "Failed to read from database"
    case InvalidConfiguration => "Invalid database configuration"
  }

  /** Anything a store operation can throw: the manager's own errors, an
      engine error or a file-system error, each with its description. */
  datatype StoreError =
    | Database(reason: DatabaseError)
    | Engine(message: string)
    | FileSystem(message: string)

  function Describe(e: StoreError): string {
    match e
    case Database(d) => DatabaseErrorDescription(d)
    case Engine(m) => m
    case FileSystem(m) => m
  }

  const NotInitialized: StoreError := Database(DatabaseNotInitialized)
  const UniqueRecordNumber: StoreError := Engine("UNIQUE constraint failed: patients.medicalRecordNumber")
  const NoPatientsTable: StoreError := Engine("no such table: patients")

  /** The store after an operation, and what the operation returned or threw. */
  datatype Outcome<T> = Outcome(store: Store, result: Result<T, StoreError>)

  // ---------------------------------------------------------------------
  // Migration

  /** `migrateDatabaseIfNeeded`: create both tables if absent and insert the
      metadata row, stamped `now`, only when there is none. */
  function Migrate(db: Db, now: int64): (r: Db)
    ensures PatientsTable in r.tables && InfoTable in r.tables
    ensures db.tables <= r.tables && r.tables - db.tables <= {PatientsTable, InfoTable}
    ensures r.records == db.records && r.sequence == db.sequence
    ensures r.info.Some?
    ensures db.info.Some? ==> r.info == db.info
    ensures db.info.None? ==> r.info.value.id == Some(InfoRowId) && r.info.value.lastModified == now
                              && r.info.value.dbVersion == Some(InitialVersion)
  {
    var info := if db.info.Some? then db.info else Some(DBInfo(Some(InfoRowId), now, Some(InitialVersion)));
    db.(tables := db.tables + {PatientsTable, InfoTable}, info := info)
  }

  /** Running the migration again changes nothing, whatever the clock says. */
  lemma MigrateIdempotent(db: Db, t1: int64, t2: int64)
    ensures Migrate(Migrate(db, t1), t2) == Migrate(db, t1)
  {
  }

  // ---------------------------------------------------------------------
  // Row operations inside a transaction

  /** The largest id among the rows (0 when there is none). */
  function MaxId(rs: seq<Patient>): (m: int)
    ensures m >= 0
    ensures forall i :: 0 <= i < |rs| && rs[i].id.Some? ==> rs[i].id.value <= m
  {
    if |rs| == 0 then 0
    else
      var m := MaxId(rs[..|rs| - 1]);
      var last := rs[|rs| - 1];
      assert forall i :: 0 <= i < |rs| - 1 ==> rs[..|rs| - 1][i] == rs[i];
      if last.id.Some? && last.id.value > m then last.id.value else m
  }

  /** The id an auto-incremented insert receives: above every id in use and
      above every id handed out before. */
  function NextRowId(db: Db): (k: int)
    ensures k > db.sequence && k > 0
    ensures forall i :: 0 <= i < |db.records| ==> db.records[i].id != Some(k)
  {
    var m := MaxId(db.records);
    (if db.sequence > m then db.sequence else m) + 1
  }

  /** Some row other than the one at `skip` already has record number `mrn`. */
  predicate MrnTaken(rs: seq<Patient>, mrn: string, skip: int) {
    exists i :: 0 <= i < |rs| && i != skip && rs[i].medicalRecordNumber == mrn
  }

  /** The keys the `patients` table enforces: every row has an id, ids are
      distinct, and medical record numbers are distinct (the UNIQUE column). */
  predicate WellKeyed(rs: seq<Patient>) {
    && (forall i :: 0 <= i < |rs| ==> rs[i].id.Some?)
    && (forall i, j :: 0 <= i < j < |rs| ==> rs[i].id != rs[j].id)
    && (forall i, j :: 0 <= i < j < |rs| ==> rs[i].medicalRecordNumber != rs[j].medicalRecordNumber)
  }

  /** The row a save would overwrite: the one holding the patient's id, or
      -1 (no row) for an insert. */
  function UpdatedRow(db: Db, p: Patient): (i: int)
    ensures -1 <= i < |db.records|
    ensures i >= 0 ==> p.id.Some? && db.records[i].id == p.id
    ensures p.id.Some? && (exists j :: 0 <= j < |db.records| && db.records[j].id == p.id) ==> i >= 0
  {
    if p.id.None? then -1
    else match IndexOfId(db.records, p.id)
      case Some(i) => i
      case None => -1
  }

  /** `patient.save(db)`: update the row with the patient's id if there is
      one, insert otherwise; a nil id gets the next auto-incremented id. */
  function SaveRow(db: Db, p: Patient): (r: Result<Db, StoreError>)
    ensures PatientsTable !in db.tables ==> r == Err(NoPatientsTable)
    ensures PatientsTable in db.tables && MrnTaken(db.records, p.medicalRecordNumber, UpdatedRow(db, p)) ==>
      r == Err(UniqueRecordNumber)
    ensures r.Ok? <==> PatientsTable in db.tables && !MrnTaken(db.records, p.medicalRecordNumber, UpdatedRow(db, p))
    ensures r.Ok? ==> r.value.tables == db.tables && r.value.info == db.info
    ensures r.Ok? ==> r.value.sequence >= db.sequence
    // an update overwrites its row in place
    ensures r.Ok? && UpdatedRow(db, p) >= 0 ==> r.value.records == db.records[UpdatedRow(db, p) := p]
    // an insert appends, with the next id when the patient has none
    ensures r.Ok? && UpdatedRow(db, p) < 0 && p.id.Some? ==> r.value.records == db.records + [p]
    ensures r.Ok? && p.id.None? ==> r.value.records == db.records + [p.(id := Some(NextRowId(db)))]
    ensures r.Ok? ==> |db.records| <= |r.value.records| <= |db.records| + 1
  {
    if PatientsTable !in db.tables then Err(NoPatientsTable)
    else
      match p.id
      case None =>
        if MrnTaken(db.records, p.medicalRecordNumber, -1) then Err(UniqueRecordNumber)
        else
          var k := NextRowId(db);
          Ok(db.(records := db.records + [p.(id := Some(k))], sequence := k))
      case Some(k) =>
        match IndexOfId(db.records, p.id)
        case Some(i) =>
          if MrnTaken(db.records, p.medicalRecordNumber, i) then Err(UniqueRecordNumber)
          else
            assert db.records[i := p][i] == p;
            Ok(db.(records := db.records[i := p]))
        case None =>
          if MrnTaken(db.records, p.medicalRecordNumber, -1) then Err(UniqueRecordNumber)
          else Ok(db.(records := db.records + [p], sequence := if k > db.sequence then k else db.sequence))
  }

  /** A save that succeeds keeps the table's keys intact. */
  lemma SaveRowKeepsKeys(db: Db, p: Patient)
    requires WellKeyed(db.records)
    requires SaveRow(db, p).Ok?
    ensures WellKeyed(SaveRow(db, p).value.records)
  {
    var rs := db.records;
    var out := SaveRow(db, p).value.records;
    match p.id
    case None =>
      assert !MrnTaken(rs, p.medicalRecordNumber, -1);
    case Some(k) =>
      match IndexOfId(rs, p.id)
      case Some(i) =>
        assert !MrnTaken(rs, p.medicalRecordNumber, i);
        assert out == rs[i := p];
      case None =>
        assert !MrnTaken(rs, p.medicalRecordNumber, -1);
        assert out == rs + [p];
  }

  /** Rows whose id is not `k`, in their original order. */
  function RemoveId(rs: seq<Patient>, k: int): (r: seq<Patient>)
    ensures |r| <= |rs|
    ensures forall x :: multiset(r)[x] == if x.id == Some(k) then 0 else multiset(rs)[x]
    ensures forall x :: x in r <==> x in rs && x.id != Some(k)
    ensures SubsequenceOf(r, rs)
  {
    if |rs| == 0 then []
    else
      var rest := RemoveId(rs[1..], k);
      assert rs == [rs[0]] + rs[1..];
      if rs[0].id == Some(k) then
        assert |rest| > 0 ==> rest[0] in rest;
        rest
      else
        assert ([rs[0]] + rest)[1..] == rest;
        [rs[0]] + rest
  }

  /** `patient.delete(db)`: remove the row with the patient's id; a patient
      without an id matches no row. */
  function DeleteRow(db: Db, p: Patient): (r: Result<Db, StoreError>)
    ensures r.Ok? <==> PatientsTable in db.tables
    ensures r.Ok? ==> r.value.tables == db.tables && r.value.info == db.info && r.value.sequence == db.sequence
    ensures r.Ok? ==> forall x :: x in r.value.records <==> x in db.records && (p.id.None? || x.id != p.id)
    ensures r.Ok? ==> SubsequenceOf(r.value.records, db.records)
    ensures r.Ok? ==> forall x ::
      multiset(r.value.records)[x] == if p.id.Some? && x.id == p.id then 0 else multiset(db.records)[x]
  {
    if PatientsTable !in db.tables then Err(NoPatientsTable)
    else if p.id.None? then
      SubsequenceOfSelf(db.records);
      Ok(db)
    else Ok(db.(records := RemoveId(db.records, p.id.value)))
  }

  // ---------------------------------------------------------------------
  // The single write path

  /** `performWrite` stamps with the server time when it has one and with
      the local clock otherwise. */
  function WriteTimestamp(serverTime: Option<int64>, localNow: int64): (t: int64)
    ensures serverTime.Some? ==> t == serverTime.value
    ensures serverTime.None? ==> t == localNow
  {
    serverTime.GetOr(localNow)
  }

  /** One write transaction: the mutation, then the stamp on row 1; if
      either throws, nothing of the transaction persists. */
  function Commit(db: Db, update: Db -> Result<Db, StoreError>, stamp: int64): (r: Result<Db, StoreError>)
    ensures update(db).Err? ==> r == Err(update(db).error)
    ensures update(db).Ok? && update(db).value.info.None? ==> r == Err(Database(DbInfoNotFound))
    ensures r.Ok? <==> update(db).Ok? && update(db).value.info.Some?
    ensures r.Ok? ==> r.value.records == update(db).value.records
    ensures r.Ok? ==> r.value.tables == update(db).value.tables && r.value.sequence == update(db).value.sequence
    ensures r.Ok? ==> r.value.info == Some(update(db).value.info.value.(lastModified := stamp))
  {
    match update(db)
    case Err(e) => Err(e)
    case Ok(d) =>
      match d.info
      case None => Err(Database(DbInfoNotFound))
      case Some(info) => Ok(d.(info := Some(info.(lastModified := stamp))))
  }

  /** `performWrite`: without a pool it fails with `databaseNotInitialized`;
      otherwise the mutation and the stamp commit together or not at all. */
  function PerformWrite(s: Store, update: Db -> Result<Db, StoreError>, serverTime: Option<int64>, localNow: int64): (r: Outcome<()>)
    ensures s.pool.None? ==> r == Outcome(s, Err(NotInitialized))
    ensures r.result.Err? ==> r.store == s
    ensures r.result.Ok? <==> s.pool.Some? && update(s.db).Ok? && update(s.db).value.info.Some?
    ensures r.result.Ok? ==> r.store.pool == s.pool && r.store.fs == s.fs && r.store.encrypted == s.encrypted
    ensures r.result.Ok? ==> r.store.db.records == update(s.db).value.records
    ensures r.result.Ok? ==> r.store.db.tables == update(s.db).value.tables
    ensures r.result.Ok? ==> r.store.db.info.Some? && r.store.db.info.value.lastModified == WriteTimestamp(serverTime, localNow)
    ensures r.result.Ok? ==> r.store.db.info.Some? && r.store.db.info.value.dbVersion == update(s.db).value.info.value.dbVersion
  {
    if s.pool.None? then Outcome(s, Err(NotInitialized))
    else
      match Commit(s.db, update, WriteTimestamp(serverTime, localNow))
      case Err(e) => Outcome(s, Err(e))
      case Ok(d) => Outcome(s.(db := d), Ok(()))
  }

  /** `performWriteSync`: the same transaction, always stamped with the local clock. */
  function PerformWriteSync(s: Store, update: Db -> Result<Db, StoreError>, localNow: int64): (r: Outcome<()>)
    ensures s.pool.None? ==> r == Outcome(s, Err(NotInitialized))
    ensures r.result.Err? ==> r.store == s
    ensures r.result.Ok? <==> s.pool.Some? && update(s.db).Ok? && update(s.db).value.info.Some?
    ensures r.result.Ok? ==> r.store.db.records == update(s.db).value.records
    ensures r.result.Ok? ==> r.store.db.info.Some? && r.store.db.info.value.lastModified == localNow
  {
    if s.pool.None? then Outcome(s, Err(NotInitialized))
    else
      match Commit(s.db, update, localNow)
      case Err(e) => Outcome(s, Err(e))
      case Ok(d) => Outcome(s.(db := d), Ok(()))
  }

  /** `savePatient`: one write that saves the row. `Patient` adopts GRDB's
      non-mutating `PersistableRecord`, so the value handed back is the
      argument itself; an inserted row's new id is not copied into it. */
  function SavePatient(s: Store, p: Patient, serverTime: Option<int64>, localNow: int64): (r: Outcome<Patient>)
    ensures r.result.Ok? <==> s.pool.Some? && SaveRow(s.db, p).Ok? && SaveRow(s.db, p).value.info.Some?
    ensures r.result.Ok? ==> r.result.value == p
    ensures r.result.Ok? ==> r.store.db.records == SaveRow(s.db, p).value.records
    ensures r.result.Ok? ==> r.store.db.info.Some? && r.store.db.info.value.lastModified == WriteTimestamp(serverTime, localNow)
    ensures r.result.Err? ==> r.store == s
    ensures s.pool.None? ==> r.result == Err(NotInitialized)
  {
    var o := PerformWrite(s, d => SaveRow(d, p), serverTime, localNow);
    match o.result
    case Ok(_) => Outcome(o.store, Ok(p))
    case Err(e) => Outcome(o.store, Err(e))
  }

  /** `deletePatient`: one write that deletes the row; the stamp moves even
      when no row matched. */
  function DeletePatient(s: Store, p: Patient, serverTime: Option<int64>, localNow: int64): (r: Outcome<()>)
    ensures r.result.Ok? <==> s.pool.Some? && PatientsTable in s.db.tables && s.db.info.Some?
    ensures r.result.Ok? ==> forall x :: x in r.store.db.records <==> x in s.db.records && (p.id.None? || x.id != p.id)
    ensures r.result.Ok? ==> SubsequenceOf(r.store.db.records, s.db.records)
    ensures r.result.Ok? ==> r.store.pool == s.pool && r.store.db.tables == s.db.tables
    ensures r.result.Ok? ==> r.store.db.info.Some? && r.store.db.info.value.lastModified == WriteTimestamp(serverTime, localNow)
    ensures r.result.Err? ==> r.store == s
    ensures s.pool.None? ==> r.result == Err(NotInitialized)
  {
    PerformWrite(s, d => DeleteRow(d, p), serverTime, localNow)
  }

  // ---------------------------------------------------------------------
  // Reads (a read fault stands for an engine error raised by the read)

  /** `loadPatients`: every row, in row order. */
  function LoadPatients(s: Store, readFault: Option<StoreError>): (r: Result<seq<Patient>, StoreError>)
    ensures s.pool.None? ==> r == Err(NotInitialized)
    ensures s.pool.Some? && readFault.Some? ==> r == Err(readFault.value)
    ensures r.Ok? <==> s.pool.Some? && readFault.None?
    ensures r.Ok? ==> r.value == s.db.records
  {
    if s.pool.None? then Err(NotInitialized)
    else if readFault.Some? then Err(readFault.value)
    else Ok(s.db.records)
  }

  /** `fetchPatient`: the row with key `id`, if any. */
  function FetchPatient(s: Store, id: int, readFault: Option<StoreError>): (r: Result<Option<Patient>, StoreError>)
    ensures s.pool.None? ==> r == Err(NotInitialized)
    ensures r.Ok? <==> s.pool.Some? && readFault.None?
    ensures r.Ok? && r.value.Some? ==> r.value.value in s.db.records && r.value.value.id == Some(id)
    ensures r.Ok? && r.value.None? ==> forall x :: x in s.db.records ==> x.id != Some(id)
  {
    if s.pool.None? then Err(NotInitialized)
    else if readFault.Some? then Err(readFault.value)
    else
      match IndexOfId(s.db.records, Some(id))
      case Some(i) => Ok(Some(s.db.records[i]))
      case None => Ok(None)
  }

  /** `getDatabaseLastModifiedTimestamp`: the stamp of row 1. */
  function LastModified(s: Store, readFault: Option<StoreError>): (r: Result<int64, StoreError>)
    ensures s.pool.None? ==> r == Err(NotInitialized)
    ensures s.pool.Some? && readFault.None? && s.db.info.None? ==> r == Err(Database(DbInfoNotFound))
    ensures r.Ok? <==> s.pool.Some? && readFault.None? && s.db.info.Some?
    ensures r.Ok? ==> r.value == s.db.info.value.lastModified
  {
    if s.pool.None? then Err(NotInitialized)
    else if readFault.Some? then Err(readFault.value)
    else if s.db.info.None? then Err(Database(DbInfoNotFound))
    else Ok(s.db.info.value.lastModified)
  }

  // ---------------------------------------------------------------------
  // Setup and the encryption toggle

  /** What the environment does when the pool is (re)opened: whether the
      support directory can be created, what opening the pool on the store
      file yields under the current passphrase setting, whether the
      migration's write transaction fails, and the local clock. */
  datatype OpenEnv = OpenEnv(
    dirFault: Option<StoreError>,
    image: Result<Db, StoreError>,
    migrateFault: Option<StoreError>,
    now: int64)

  predicate OpensCleanly(env: OpenEnv) {
    env.dirFault.None? && env.image.Ok? && env.migrateFault.None?
  }

  /** The store after setup, and the fault it reports to the delegate, if
      any (a report is lost when no delegate is registered yet). */
  datatype SetupOutcome = SetupOutcome(store: Store, fault: Option<StoreError>)

  /** `setupDatabase`: open the pool and migrate; any fault leaves the pool
      nil and is reported to the delegate instead of being thrown. */
  function Setup(s: Store, env: OpenEnv): (r: SetupOutcome)
    ensures r.store.fs == s.fs && r.store.encrypted == s.encrypted
    ensures r.fault.None? <==> r.store.pool.Some?
    ensures r.store.pool.Some? <==> OpensCleanly(env)
    ensures r.store.pool.Some? ==> r.store.pool.value.encrypted == s.encrypted
    ensures r.store.pool.Some? ==> r.store.db == Migrate(env.image.value, env.now)
    ensures r.store.pool.None? ==> r.store.db == s.db
  {
    if env.dirFault.Some? then SetupOutcome(s.(pool := None), env.dirFault)
    else
      match env.image
      case Err(e) => SetupOutcome(s.(pool := None), Some(e))
      case Ok(image) =>
        if env.migrateFault.Some? then SetupOutcome(s.(pool := None), env.migrateFault)
        else SetupOutcome(s.(pool := Some(Conn(s.encrypted)), db := Migrate(image, env.now)), None)
  }

  /** The manager at process start: encryption on, then setup. Setup runs
      inside the shared manager's initializer, and the list screen can set
      itself as delegate only after that initializer has returned, whoever
      touched the shared manager first. So this setup's fault reaches no
      delegate; the screen's first load then fails on the missing pool
      instead (see `ListModel.StartupFaultAlerts`). */
  function Initial(fs: map<Path, Bytes>, env: OpenEnv): (r: SetupOutcome)
    ensures r.store.encrypted && r.store.fs == fs
    ensures r.store.pool.Some? <==> OpensCleanly(env)
    ensures r.store.pool.Some? ==> r.store.pool.value.encrypted && r.store.db.info.Some?
    ensures r.store.pool.Some? ==> r.store.db.records == env.image.value.records
    ensures r.fault.Some? <==> !OpensCleanly(env)
  {
    Setup(Store(None, true, fs, EmptyDb), env)
  }

  /** `toggleEncryption`: flip the flag, then set up again. */
  function ToggleEncryption(s: Store, env: OpenEnv): (r: SetupOutcome)
    ensures r.store.encrypted == !s.encrypted
    ensures r.store.fs == s.fs
    ensures r.store.pool.Some? <==> OpensCleanly(env)
    ensures r.store.pool.Some? ==> r.store.pool.value.encrypted == !s.encrypted
  {
    Setup(s.(encrypted := !s.encrypted), env)
  }

  /** Toggling twice restores the flag, and a clean second re-open leaves a
      pool under the original passphrase setting on the migrated image;
      whatever the first re-open did is forgotten. */
  lemma ToggleTwiceRestoresSetting(s: Store, e1: OpenEnv, e2: OpenEnv)
    ensures ToggleEncryption(ToggleEncryption(s, e1).store, e2).store.encrypted == s.encrypted
    ensures ToggleEncryption(ToggleEncryption(s, e1).store, e2).store.fs == s.fs
    ensures OpensCleanly(e2) ==>
      && ToggleEncryption(ToggleEncryption(s, e1).store, e2).store.pool == Some(Conn(s.encrypted))
      && ToggleEncryption(ToggleEncryption(s, e1).store, e2).store.db == Migrate(e2.image.value, e2.now)
    ensures !OpensCleanly(e2) ==> ToggleEncryption(ToggleEncryption(s, e1).store, e2).store.pool.None?
  {
    var once := ToggleEncryption(s, e1).store;
    assert once.encrypted == !s.encrypted;
  }

  // ---------------------------------------------------------------------
  // The replacement protocol

  /** The file-system effects of a replacement, in order. */
  datatype FsStep = ReleasePool | RemoveFile(path: Path) | CopyFile(from: Path, to: Path) | Reopen

  /** What the environment does during a replacement: whether reading the
      candidate's attributes fails, whether the support directory resolves,
      which removals fail, whether the copy fails, and how the re-open goes. */
  datatype ReplaceEnv = ReplaceEnv(
    attributesFault: Option<StoreError>,
    dirFault: Option<StoreError>,
    removeFails: set<Path>,
    copyFault: Option<StoreError>,
    reopen: OpenEnv)

  datatype ReplaceOutcome = ReplaceOutcome(
    store: Store,
    steps: seq<FsStep>,
    result: Result<(), StoreError>,
    fault: Option<StoreError>)

  /** The candidate file exists and is not empty. */
  predicate ValidCandidate(s: Store, candidate: Path) {
    candidate in s.fs && |s.fs[candidate]| > 0
  }

  /** `if fileExists { try removeItem }`: a missing file is not an error, a
      failing removal is. */
  function RemoveIfPresent(fs: map<Path, Bytes>, path: Path, failing: set<Path>): (r: Result<map<Path, Bytes>, StoreError>)
    ensures path !in fs ==> r == Ok(fs)
    ensures path in fs && path in failing ==> r.Err?
    ensures path in fs && path !in failing ==> r == Ok(fs - {path})
  {
    if path !in fs then Ok(fs)
    else if path in failing then Err(FileSystem("could not remove " + path))
    else Ok(fs - {path})
  }

  function Removal(fs: map<Path, Bytes>, path: Path): seq<FsStep> {
    if path in fs then [RemoveFile(path)] else []
  }

  /** The removals a replacement performs on `fs`: side files first, then
      the store file, each only if present. */
  function Removals(fs: map<Path, Bytes>): seq<FsStep> {
    Removal(fs, WalPath) + Removal(fs, ShmPath) + Removal(fs, DbPath)
  }

  /** Every step of the protocol succeeds. */
  predicate ReplaceSucceeds(s: Store, candidate: Path, env: ReplaceEnv) {
    && ValidCandidate(s, candidate)
    && env.attributesFault.None?
    && env.dirFault.None?
    && (WalPath in s.fs ==> WalPath !in env.removeFails)
    && (ShmPath in s.fs ==> ShmPath !in env.removeFails)
    && (DbPath in s.fs ==> DbPath !in env.removeFails)
    && candidate != WalPath && candidate != ShmPath && candidate != DbPath
    && env.copyFault.None?
    && OpensCleanly(env.reopen)
  }

  /** `replaceDatabase(withNewFileAt:)`. */
  function Replace(s: Store, candidate: Path, env: ReplaceEnv): (r: ReplaceOutcome)
    // rejection before anything is touched: a missing candidate, unreadable
    // attributes, then an empty candidate
    ensures candidate !in s.fs ==> r == ReplaceOutcome(s, [], Err(Database(InvalidConfiguration)), None)
    ensures candidate in s.fs && env.attributesFault.Some? ==>
      r == ReplaceOutcome(s, [], Err(env.attributesFault.value), None)
    ensures candidate in s.fs && env.attributesFault.None? && |s.fs[candidate]| == 0 ==>
      r == ReplaceOutcome(s, [], Err(Database(InvalidConfiguration)), None)
    ensures r.steps == [] ==> r.store == s && r.result.Err?
    // the pool is released first, and stays released on every later failure
    ensures r.steps != [] ==> r.steps[0] == ReleasePool
    ensures r.steps != [] && r.result.Err? ==> r.store.pool.None?
    ensures r.store.encrypted == s.encrypted
    // success
    ensures r.result.Ok? <==> ReplaceSucceeds(s, candidate, env)
    ensures r.result.Ok? ==>
      && r.store.pool == Some(Conn(s.encrypted))
      && DbPath in r.store.fs && r.store.fs[DbPath] == s.fs[candidate]
      && WalPath !in r.store.fs && ShmPath !in r.store.fs
      && r.steps == [ReleasePool] + Removals(s.fs) + [CopyFile(candidate, DbPath), Reopen]
      && r.store.db == Migrate(env.reopen.image.value, env.reopen.now)
    // files other than the store's own are never touched, whatever happens
    ensures forall q :: q in s.fs && q != DbPath && q != WalPath && q != ShmPath ==> q in r.store.fs && r.store.fs[q] == s.fs[q]
    ensures r.result.Ok? ==> forall q :: q in r.store.fs ==> q == DbPath || q in s.fs
    // the re-open fails after the copy
    ensures ReplaceSucceeds(s, candidate, env.(reopen := env.reopen.(dirFault := None, image := Ok(EmptyDb), migrateFault := None)))
            && !OpensCleanly(env.reopen) ==>
      && r.result == Err(NotInitialized)
      && r.store.pool.None?
      && r.fault.Some?
      && DbPath in r.store.fs && r.store.fs[DbPath] == s.fs[candidate]
  {
    if candidate !in s.fs then ReplaceOutcome(s, [], Err(Database(InvalidConfiguration)), None)
    else if env.attributesFault.Some? then ReplaceOutcome(s, [], Err(env.attributesFault.value), None)
    else if |s.fs[candidate]| == 0 then ReplaceOutcome(s, [], Err(Database(InvalidConfiguration)), None)
    else if env.dirFault.Some? then ReplaceOutcome(s, [], Err(env.dirFault.value), None)
    else
      PathsDistinct();
      var closed := s.(pool := None);
      var steps0 := [ReleasePool];
      match RemoveIfPresent(s.fs, WalPath, env.removeFails)
      case Err(e) => ReplaceOutcome(closed, steps0, Err(e), None)
      case Ok(fs1) =>
        var steps1 := steps0 + Removal(s.fs, WalPath);
        match RemoveIfPresent(fs1, ShmPath, env.removeFails)
        case Err(e) => ReplaceOutcome(closed.(fs := fs1), steps1, Err(e), None)
        case Ok(fs2) =>
          var steps2 := steps1 + Removal(fs1, ShmPath);
          match RemoveIfPresent(fs2, DbPath, env.removeFails)
          case Err(e) => ReplaceOutcome(closed.(fs := fs2), steps2, Err(e), None)
          case Ok(fs3) =>
            var steps3 := steps2 + Removal(fs2, DbPath);
            assert steps3 == [ReleasePool] + Removals(s.fs);
            if candidate !in fs3 then
              ReplaceOutcome(closed.(fs := fs3), steps3, Err(FileSystem("no such file: " + candidate)), None)
            else if env.copyFault.Some? then
              ReplaceOutcome(closed.(fs := fs3), steps3, Err(env.copyFault.value), None)
            else
              var fs4 := fs3[DbPath := fs3[candidate]];
              var steps4 := steps3 + [CopyFile(candidate, DbPath)];
              // the source re-checks that the copy exists; it always does here
              if DbPath !in fs4 then ReplaceOutcome(closed.(fs := fs4), steps4, Err(Database(InvalidConfiguration)), None)
              else
                var reopened := Setup(closed.(fs := fs4), env.reopen);
                var steps5 := steps4 + [Reopen];
                if reopened.store.pool.None? then ReplaceOutcome(reopened.store, steps5, Err(NotInitialized), reopened.fault)
                else ReplaceOutcome(reopened.store, steps5, Ok(()), None)
  }

  // ---------------------------------------------------------------------
  // Export

  /** What the environment does during an export: whether the documents
      directory resolves, whether removing an earlier export fails, whether
      the destination pool opens, and the bytes the backup writes (the
      current image under the current passphrase setting). */
  datatype ExportEnv = ExportEnv(
    docsFault: Option<StoreError>,
    removeFault: Option<StoreError>,
    openFault: Option<StoreError>,
    backup: Result<Bytes, StoreError>)

  predicate ExportSucceeds(s: Store, env: ExportEnv) {
    && s.pool.Some?
    && env.docsFault.None?
    && (ExportPath in s.fs ==> env.removeFault.None?)
    && env.openFault.None?
    && env.backup.Ok?
  }

  /** `exportToDocuments`: back the store up into a fresh file in the
      documents directory and return its path. */
  function ExportToDocuments(s: Store, env: ExportEnv): (r: Outcome<Path>)
    ensures s.pool.None? ==> r == Outcome(s, Err(NotInitialized))
    ensures r.store.pool == s.pool && r.store.db == s.db && r.store.encrypted == s.encrypted
    ensures forall q :: q != ExportPath ==> (q in r.store.fs <==> q in s.fs)
    ensures forall q :: q != ExportPath && q in s.fs ==> r.store.fs[q] == s.fs[q]
    ensures r.result.Ok? <==> ExportSucceeds(s, env)
    ensures r.result.Ok? ==> r.result.value == ExportPath && r.store.fs == s.fs[ExportPath := env.backup.value]
  {
    if s.pool.None? then Outcome(s, Err(NotInitialized))
    else if env.docsFault.Some? then Outcome(s, Err(env.docsFault.value))
    else if ExportPath in s.fs && env.removeFault.Some? then Outcome(s, Err(env.removeFault.value))
    else
      var cleared := s.fs - {ExportPath};
      if env.openFault.Some? then Outcome(s.(fs := cleared), Err(env.openFault.value))
      else
        // opening the destination pool creates an empty store file
        var created := cleared[ExportPath := []];
        match env.backup
        case Err(e) => Outcome(s.(fs := created), Err(e))
        case Ok(bytes) => Outcome(s.(fs := cleared[ExportPath := bytes]), Ok(ExportPath))
  }

  // ---------------------------------------------------------------------
  // Push

  /** What the environment does during a push: the timestamp read, the
      export, whether reading the exported file back fails, the reply to the
      listing (nil on error), and whether deleting the exported file
      afterwards fails. */
  datatype PushEnv = PushEnv(
    readFault: Option<StoreError>,
    exporting: ExportEnv,
    exportReadFault: Option<StoreError>,
    listing: Option<seq<DriveFile>>,
    cleanupFault: Option<StoreError>)

  datatype PushOutcome = PushOutcome(store: Store, request: Option<DriveRequest>, result: Result<(), StoreError>)

  /** The listing the push step issues. */
  function PushListQuery(): (q: ListQuery)
    ensures q.spaces == AppDataSpace && q.pageSize == Some(DefaultMaxResults) && q.orderBy.None?
    ensures q.q == Some(RemoteSearch + " and trashed=false")
  {
    NoTrashInRemoteSearch();
    SearchGetsTrashFilter(RemoteSearch);
    QueryFiles(RemoteSearch, None, None, DefaultMaxResults)
  }

  /** The push step's search never mentions "trashed", so the trash filter
      is appended to it. */
  lemma NoTrashInRemoteSearch()
    ensures !Contains(RemoteSearch, "trashed")
  {
    forall i: nat
      ensures !OccursAt(RemoteSearch, "trashed", i)
    {
      if i + 7 <= |RemoteSearch| {
        assert RemoteSearch[i..i + 7][0] == RemoteSearch[i] && RemoteSearch[i..i + 7][1] == RemoteSearch[i + 1];
      }
    }
    NotContainedWithoutOccurrence(RemoteSearch, "trashed");
  }

  /** A search without "trashed" is sent with the trash filter appended. */
  lemma SearchGetsTrashFilter(search: string)
    requires search != [] && !Contains(search, "trashed")
    ensures QueryFiles(search, None, None, DefaultMaxResults).q == Some(search + " and trashed=false")
  {
    var qs := QueryString(search, None);
    assert qs == AndThen(search, TrashedFilter);
    assert qs == search + " and " + TrashedFilter;
    assert qs == search + " and trashed=false";
    assert QueryFiles(search, None, None, DefaultMaxResults).q == Some(qs);
  }

  /** The id of the first listed file, when the listing succeeded and is not
      empty (nil when that file has no id). */
  function ExistingRemoteId(listing: Option<seq<DriveFile>>): Option<string> {
    if listing.Some? && |listing.value| > 0 then listing.value[0].identifier else None
  }

  /** The properties sent with the upload: the timestamp as decimal text. */
  function TimestampProperties(t: int64): (m: map<string, string>)
    ensures m.Keys == {TimestampKey}
    ensures ParseInt64(m[TimestampKey]) == Some(t)
  {
    DecimalRoundTrip(t);
    map[TimestampKey := ToDecimal(t)]
  }

  /** The properties an upload or update request carries. */
  function RequestProperties(q: DriveRequest): Option<map<string, string>> {
    q.metadata.properties
  }

  /** `pushDatabaseToCloud`: read the stamp, export, then update the first
      remote file found or upload a new one, and delete the export. Upload
      and update failures are only logged, so they are not modelled. */
  function PushDatabaseToCloud(s: Store, env: PushEnv): (r: PushOutcome)
    ensures s.pool.None? ==> r == PushOutcome(s, None, Err(NotInitialized))
    ensures r.store.pool == s.pool && r.store.db == s.db
    ensures r.request.Some? <==>
      LastModified(s, env.readFault).Ok? && ExportSucceeds(s, env.exporting) && env.exportReadFault.None?
    // reading the export back fails after it was written: no request, and the export stays
    ensures LastModified(s, env.readFault).Ok? && ExportSucceeds(s, env.exporting) && env.exportReadFault.Some? ==>
      r.result == Err(env.exportReadFault.value) && ExportPath in r.store.fs
    ensures r.request.Some? ==>
      RequestProperties(r.request.value) == Some(TimestampProperties(s.db.info.value.lastModified))
    ensures r.request.Some? ==> r.request.value.data == env.exporting.backup.value
    ensures r.request.Some? ==> (r.request.value.Update? <==> ExistingRemoteId(env.listing).Some?)
    ensures r.request.Some? && r.request.value.Update? ==> r.request.value.fileId == ExistingRemoteId(env.listing).value
    ensures r.request.Some? && r.request.value.Create? ==>
      r.request.value.metadata.name == Some(ExportName) && r.request.value.metadata.parents == Some([AppDataSpace])
    ensures r.request.Some? ==> r.request.value.mimeType == SqliteMime
    ensures r.result.Ok? <==> r.request.Some? && env.cleanupFault.None?
    ensures r.result.Ok? ==> ExportPath !in r.store.fs
  {
    match LastModified(s, env.readFault)
    case Err(e) => PushOutcome(s, None, Err(e))
    case Ok(t) =>
      var ex := ExportToDocuments(s, env.exporting);
      match ex.result
      case Err(e) => PushOutcome(ex.store, None, Err(e))
      case Ok(path) =>
        if env.exportReadFault.Some? then PushOutcome(ex.store, None, Err(env.exportReadFault.value))
        else
          var data := ex.store.fs[path];
          var props := TimestampProperties(t);
          var request := match ExistingRemoteId(env.listing)
            case Some(id) => Update(id, UpdateMetadata(Some(props)), data, SqliteMime)
            case None => Create(UploadMetadata(ExportName, Some(AppDataSpace), Some(props)), data, SqliteMime);
          if env.cleanupFault.Some? then PushOutcome(ex.store, Some(request), Err(env.cleanupFault.value))
          else PushOutcome(ex.store.(fs := ex.store.fs - {path}), Some(request), Ok(()))
  }
}

=== FILE: sync.dfy ===
/** The sync coordinator (ToDo/Helpers/CloudSyncManager.swift): a guarded
    pull cycle that replaces the local store with the remote copy when the
    remote timestamp is strictly newer, plus starting, stopping and manual
    triggering. Every network reply and clock reading is a parameter. */
module Sync {
  import opened Base
  import opened Decimal
  import opened DriveQuery
  import opened Store

  datatype CloudSyncError =
    | UserNotSignedIn
    | FileNotFound
    | InvalidMetadata
    | DownloadFailed
    | SyncInProgress
    | DatabaseError

  function CloudErrorDescription(e: CloudSyncError): (r: string)
    ensures r == "User is not signed in to Google Drive" <==> e == UserNotSignedIn
    ensures r == "Database file not found in Google Drive" <==> e == FileNotFound
    ensures r == "Invalid file metadata received" <==> e == InvalidMetadata
    ensures r == "Failed to download database file" <==> e == DownloadFailed
    ensures r == "Sync operation already in progress" <==> e == SyncInProgress
    ensures r == "Error accessing local database" <==> e == DatabaseError
  {
    match e
    case UserNotSignedIn => "User is not signed in to Google Drive"
    case FileNotFound => "Database file not found in Google Drive"
    case InvalidMetadata => "Invalid file metadata received"
    case DownloadFailed => "Failed to download database file"
    case SyncInProgress => "Sync operation already in progress"
    case DatabaseError => "Error accessing local database"
  }

  /** What a cycle can throw: a sync error of its own or a store error. */
  datatype SyncError = Cloud(cloud: CloudSyncError) | Local(local: StoreError)

  function SyncErrorDescription(e: SyncError): string {
    match e
    case Cloud(c) => CloudErrorDescription(c)
    case Local(l) => Describe(l)
  }

  /** The status line a failed cycle leaves behind. */
  function ErrorStatus(e: SyncError): string {
    "Error: " + SyncErrorDescription(e)
  }

  /** The repeat interval of the timer, in seconds. */
  const SyncInterval: int := 30

  const NotSynced: string := "Not synced"
  const ReadyStatus: string := "Ready to sync"
  const SyncingStatus: string := "Syncing..."
  const UpToDateStatus: string := "Database is up to date"
  const NoHelperStatus: string := "Error: Drive helper not initialized"
  const NotInitializedStatus: string := "Error: Not initialized with Google user"

  /** The coordinator's observable state, plus whether a Drive helper has
      been created and whether the repeating timer is scheduled. */
  datatype SyncState = SyncState(
    isSyncing: bool,
    isEnabled: bool,
    status: string,
    lastSyncDate: Option<int>,
    hasDriveHelper: bool,
    timerScheduled: bool)

  const InitialSync: SyncState := SyncState(false, false, NotSynced, None, false, false)

  /** The replies and readings one cycle consumes, in the order it asks for
      them: the local timestamp read, the file listing (nil on error), the
      first file's metadata (nil on error), the download (nil on error), the
      temporary file and whether writing it fails, the replacement's
      environment, whether the temporary file's removal succeeds, and the
      clock with its formatted text. */
  datatype CycleReplies = CycleReplies(
    localReadFault: Option<StoreError>,
    listing: Option<seq<DriveFile>>,
    metadata: Option<DriveFile>,
    download: Option<Bytes>,
    tempPath: Path,
    tempWriteFault: Option<StoreError>,
    replace: ReplaceEnv,
    tempRemoved: bool,
    now: int,
    nowText: string)

  /** The coordinator and the store after a cycle, and whether the
      `DatabaseUpdated` notification was posted. */
  datatype Cycle = Cycle(sync: SyncState, store: Store, posted: bool)

  /** The temporary download location for a given UUID text. */
  function TempPath(uuid: string): (p: Path)
    ensures p != DbPath && p != WalPath && p != ShmPath
  {
    var p := "tmp/temp_db_" + uuid + ".sqlite";
    assert p[0] == 't' && DbPath[0] == 'P' && WalPath[0] == 'P' && ShmPath[0] == 'P';
    p
  }

  /** The id of the first listed file; a failed or empty listing, or a
      first file without an id, means no remote copy. */
  function RemoteFileId(listing: Option<seq<DriveFile>>): (r: Result<string, CloudSyncError>)
    ensures r.Err? ==> r.error == FileNotFound
    ensures r.Ok? <==> listing.Some? && |listing.value| > 0 && listing.value[0].identifier.Some?
    ensures r.Ok? ==> r.value == listing.value[0].identifier.value
  {
    match listing
    case None => Err(FileNotFound)
    case Some(files) =>
      if |files| == 0 then Err(FileNotFound)
      else
        match files[0].identifier
        case None => Err(FileNotFound)
        case Some(id) => Ok(id)
  }

  /** The remote timestamp: the `lastModified` property read as an Int64. */
  function CloudTimestamp(metadata: Option<DriveFile>): (r: Result<int64, CloudSyncError>)
    ensures r.Err? ==> r.error == InvalidMetadata
    ensures r.Ok? <==>
      && metadata.Some? && metadata.value.properties.Some?
      && TimestampKey in metadata.value.properties.value
      && ParseInt64(metadata.value.properties.value[TimestampKey]).Some?
    ensures r.Ok? ==> Some(r.value) == ParseInt64(metadata.value.properties.value[TimestampKey])
  {
    match metadata
    case None => Err(InvalidMetadata)
    case Some(file) =>
      match file.properties
      case None => Err(InvalidMetadata)
      case Some(props) =>
        if TimestampKey !in props then Err(InvalidMetadata)
        else
          match ParseInt64(props[TimestampKey])
          case None => Err(InvalidMetadata)
          case Some(t) => Ok(t)
  }

  /** What a cycle decides before downloading anything. */
  datatype Decision = Pull(cloud: int64, local: int64) | UpToDate(cloud: int64, local: int64)

  /** The decision chain: local stamp, remote file, remote stamp, then a
      strict last-write-wins comparison. */
  function Decide(st: Store, rp: CycleReplies): (r: Result<Decision, SyncError>)
    ensures r.Ok? <==>
      LastModified(st, rp.localReadFault).Ok? && RemoteFileId(rp.listing).Ok? && CloudTimestamp(rp.metadata).Ok?
    ensures r.Ok? ==> r.value.local == LastModified(st, rp.localReadFault).value
    ensures r.Ok? ==> r.value.cloud == CloudTimestamp(rp.metadata).value
    ensures r.Ok? ==> (r.value.Pull? <==> r.value.cloud > r.value.local)
    ensures LastModified(st, rp.localReadFault).Err? ==> r == Err(Local(LastModified(st, rp.localReadFault).error))
    ensures LastModified(st, rp.localReadFault).Ok? && RemoteFileId(rp.listing).Err? ==> r == Err(Cloud(FileNotFound))
    ensures LastModified(st, rp.localReadFault).Ok? && RemoteFileId(rp.listing).Ok? && CloudTimestamp(rp.metadata).Err? ==>
      r == Err(Cloud(InvalidMetadata))
  {
    match LastModified(st, rp.localReadFault)
    case Err(e) => Err(Local(e))
    case Ok(local) =>
      match RemoteFileId(rp.listing)
      case Err(e) => Err(Cloud(e))
      case Ok(_) =>
        match CloudTimestamp(rp.metadata)
        case Err(e) => Err(Cloud(e))
        case Ok(cloud) => if cloud > local then Ok(Pull(cloud, local)) else Ok(UpToDate(cloud, local))
  }

  /** The replacement a pull attempts: the store with the downloaded bytes
      written to the temporary file, replaced from that file. */
  function Replacement(st: Store, rp: CycleReplies): ReplaceOutcome
    requires rp.download.Some?
  {
    Replace(st.(fs := st.fs[rp.tempPath := rp.download.value]), rp.tempPath, rp.replace)
  }

  /** The pull branch: download, write the temporary file, replace the store
      with it; on success record the time, post the notification and remove
      the temporary file. */
  function PullRemote(s: SyncState, st: Store, rp: CycleReplies): (r: Cycle)
    requires rp.tempPath != DbPath && rp.tempPath != WalPath && rp.tempPath != ShmPath
    ensures rp.download.None? ==> r == Cycle(s.(status := ErrorStatus(Cloud(DownloadFailed))), st, false)
    ensures r.posted <==> rp.download.Some? && rp.tempWriteFault.None? && Replacement(st, rp).result.Ok?
    // every failure becomes "Error: " and its description
    ensures rp.download.Some? && rp.tempWriteFault.Some? ==>
      r == Cycle(s.(status := ErrorStatus(Local(rp.tempWriteFault.value))), st, false)
    ensures rp.download.Some? && rp.tempWriteFault.None? && Replacement(st, rp).result.Err? ==>
      && r == Cycle(s.(status := ErrorStatus(Local(Replacement(st, rp).result.error))), Replacement(st, rp).store, false)
      && rp.tempPath in r.store.fs && r.store.fs[rp.tempPath] == rp.download.value
    ensures r.posted ==> r.sync == s.(lastSyncDate := Some(rp.now), status := "Last synced: " + rp.nowText)
    ensures r.posted ==> DbPath in r.store.fs && r.store.fs[DbPath] == rp.download.value && r.store.pool.Some?
    ensures r.posted && rp.tempRemoved ==> rp.tempPath !in r.store.fs
    ensures !r.posted ==> r.sync.lastSyncDate == s.lastSyncDate
  {
    match rp.download
    case None => Cycle(s.(status := ErrorStatus(Cloud(DownloadFailed))), st, false)
    case Some(data) =>
      if rp.tempWriteFault.Some? then Cycle(s.(status := ErrorStatus(Local(rp.tempWriteFault.value))), st, false)
      else
        var rep := Replacement(st, rp);
        match rep.result
        case Err(e) => Cycle(s.(status := ErrorStatus(Local(e))), rep.store, false)
        case Ok(_) =>
          var cleaned := if rp.tempRemoved then rep.store.(fs := rep.store.fs - {rp.tempPath}) else rep.store;
          Cycle(s.(lastSyncDate := Some(rp.now), status := "Last synced: " + rp.nowText), cleaned, true)
  }

  /** The body of one cycle, once the guard is held: report a failed
      decision, report an up-to-date store, or pull. */
  function RunCycle(s: SyncState, st: Store, rp: CycleReplies): (r: Cycle)
    requires rp.tempPath != DbPath && rp.tempPath != WalPath && rp.tempPath != ShmPath
    ensures Decide(st, rp).Err? ==> r == Cycle(s.(status := ErrorStatus(Decide(st, rp).error)), st, false)
    ensures Decide(st, rp).Ok? && Decide(st, rp).value.UpToDate? ==> r == Cycle(s.(status := UpToDateStatus), st, false)
    ensures Decide(st, rp).Ok? && Decide(st, rp).value.Pull? ==> r == PullRemote(s, st, rp)
    ensures r.store != st || r.posted ==> Decide(st, rp).Ok? && Decide(st, rp).value.cloud > Decide(st, rp).value.local
    ensures r.sync.isSyncing == s.isSyncing && r.sync.isEnabled == s.isEnabled
  {
    match Decide(st, rp)
    case Err(e) => Cycle(s.(status := ErrorStatus(e)), st, false)
    case Ok(UpToDate(_, _)) => Cycle(s.(status := UpToDateStatus), st, false)
    case Ok(Pull(_, _)) => PullRemote(s, st, rp)
  }

  /** Taking the guard: the flag goes up and the status says so. */
  function BeginSync(s: SyncState): (r: SyncState)
    ensures r.isSyncing && r.status == SyncingStatus
    ensures r.isEnabled == s.isEnabled && r.lastSyncDate == s.lastSyncDate
    ensures r.hasDriveHelper == s.hasDriveHelper && r.timerScheduled == s.timerScheduled
  {
    s.(isSyncing := true, status := SyncingStatus)
  }

  /** `performSync`: a no-op while a cycle holds the guard; without a Drive
      helper only the status changes; otherwise one cycle runs and the guard
      is released whatever happened. */
  function PerformSync(s: SyncState, st: Store, rp: CycleReplies): (r: Cycle)
    requires rp.tempPath != DbPath && rp.tempPath != WalPath && rp.tempPath != ShmPath
    ensures s.isSyncing ==> r == Cycle(s, st, false)
    ensures !s.isSyncing ==> !r.sync.isSyncing
    ensures !s.isSyncing && !s.hasDriveHelper ==> r == Cycle(s.(status := NoHelperStatus), st, false)
    ensures r.sync.isEnabled == s.isEnabled && r.sync.timerScheduled == s.timerScheduled
    ensures r.sync.hasDriveHelper == s.hasDriveHelper
    // the store changes, and the notification is posted, only when the remote copy is strictly newer
    ensures r.store != st || r.posted ==>
      && !s.isSyncing && s.hasDriveHelper
      && Decide(st, rp).Ok? && Decide(st, rp).value.cloud > Decide(st, rp).value.local
    ensures r.posted ==> r.sync.lastSyncDate == Some(rp.now) && r.sync.status == "Last synced: " + rp.nowText
    ensures !r.posted ==> r.sync.lastSyncDate == s.lastSyncDate
    ensures !s.isSyncing && s.hasDriveHelper && Decide(st, rp).Err? ==>
      r.sync.status == ErrorStatus(Decide(st, rp).error) && r.store == st
    ensures !s.isSyncing && s.hasDriveHelper && Decide(st, rp).Ok? && Decide(st, rp).value.UpToDate? ==>
      r.sync.status == UpToDateStatus && r.store == st && !r.posted
    // the pull's failures, each reported as "Error: " and its description
    ensures !s.isSyncing && s.hasDriveHelper && Decide(st, rp).Ok? && Decide(st, rp).value.Pull? && rp.download.None? ==>
      r.sync.status == ErrorStatus(Cloud(DownloadFailed)) && r.store == st
    ensures !s.isSyncing && s.hasDriveHelper && Decide(st, rp).Ok? && Decide(st, rp).value.Pull?
            && rp.download.Some? && rp.tempWriteFault.Some? ==>
      r.sync.status == ErrorStatus(Local(rp.tempWriteFault.value)) && r.store == st
    ensures !s.isSyncing && s.hasDriveHelper && Decide(st, rp).Ok? && Decide(st, rp).value.Pull?
            && rp.download.Some? && rp.tempWriteFault.None? && Replacement(st, rp).result.Err? ==>
      && r.sync.status == ErrorStatus(Local(Replacement(st, rp).result.error))
      && r.store == Replacement(st, rp).store
      && rp.tempPath in r.store.fs
  {
    if s.isSyncing then Cycle(s, st, false)
    else if !s.hasDriveHelper then Cycle(s.(status := NoHelperStatus), st, false)
    else
      var c := RunCycle(BeginSync(s), st, rp);
      Cycle(c.sync.(isSyncing := false), c.store, c.posted)
  }

  /** A second request arriving while a cycle holds the guard does nothing. */
  lemma GuardedRequestIsNoOp(s: SyncState, st: Store, rp: CycleReplies)
    requires rp.tempPath != DbPath && rp.tempPath != WalPath && rp.tempPath != ShmPath
    ensures PerformSync(BeginSync(s), st, rp) == Cycle(BeginSync(s), st, false)
  {
  }

  /** `initializeWithUser`: create the Drive helper. */
  function InitializeWithUser(s: SyncState): (r: SyncState)
    ensures r.hasDriveHelper && r.status == ReadyStatus
    ensures r.isSyncing == s.isSyncing && r.isEnabled == s.isEnabled && r.timerScheduled == s.timerScheduled
  {
    s.(hasDriveHelper := true, status := ReadyStatus)
  }

  /** `stopAutoSync`: cancel the timer and disable. */
  function StopAutoSync(s: SyncState): (r: SyncState)
    ensures !r.isEnabled && !r.timerScheduled
    ensures r.isSyncing == s.isSyncing && r.status == s.status && r.hasDriveHelper == s.hasDriveHelper
  {
    s.(timerScheduled := false, isEnabled := false)
  }

  /** `startAutoSync`: stop first; without a helper report it and stay
      disabled; otherwise enable, schedule the timer and run one cycle now. */
  function StartAutoSync(s: SyncState, st: Store, rp: CycleReplies): (r: Cycle)
    requires rp.tempPath != DbPath && rp.tempPath != WalPath && rp.tempPath != ShmPath
    ensures !s.hasDriveHelper ==> r == Cycle(StopAutoSync(s).(status := NotInitializedStatus), st, false)
    ensures r.sync.isEnabled <==> s.hasDriveHelper
    ensures r.sync.timerScheduled <==> s.hasDriveHelper
    ensures s.hasDriveHelper ==> r == PerformSync(s.(isEnabled := true, timerScheduled := true), st, rp)
  {
    var stopped := StopAutoSync(s);
    if !stopped.hasDriveHelper then Cycle(stopped.(status := NotInitializedStatus), st, false)
    else PerformSync(stopped.(isEnabled := true, timerScheduled := true), st, rp)
  }

  /** `manualSync`: like a timer tick, but reports a missing helper itself. */
  function ManualSync(s: SyncState, st: Store, rp: CycleReplies): (r: Cycle)
    requires rp.tempPath != DbPath && rp.tempPath != WalPath && rp.tempPath != ShmPath
    ensures !s.hasDriveHelper ==> r == Cycle(s.(status := NotInitializedStatus), st, false)
    ensures s.hasDriveHelper ==> r == PerformSync(s, st, rp)
  {
    if !s.hasDriveHelper then Cycle(s.(status := NotInitializedStatus), st, false)
    else PerformSync(s, st, rp)
  }

  /** A timer tick runs a cycle only while the timer is scheduled. */
  function TimerFired(s: SyncState, st: Store, rp: CycleReplies): (r: Cycle)
    requires rp.tempPath != DbPath && rp.tempPath != WalPath && rp.tempPath != ShmPath
    ensures !s.timerScheduled ==> r == Cycle(s, st, false)
    ensures s.timerScheduled ==> r == PerformSync(s, st, rp)
  {
    if s.timerScheduled then PerformSync(s, st, rp) else Cycle(s, st, false)
  }

  /** After a stop, ticks do nothing. */
  lemma StoppedTimerIsInert(s: SyncState, st: Store, rp: CycleReplies)
    requires rp.tempPath != DbPath && rp.tempPath != WalPath && rp.tempPath != ShmPath
    ensures TimerFired(StopAutoSync(s), st, rp) == Cycle(StopAutoSync(s), st, false)
  {
  }

  /** A copy pushed by this app carries a timestamp the pull side reads back
      exactly, so the comparison sees the pushed store's own stamp. */
  lemma PushedStampIsReadBack(t: int64, id: string, name: Option<string>)
    ensures CloudTimestamp(Some(DriveFile(Some(id), name, None, Some(TimestampProperties(t))))) == Ok(t)
  {
  }

  /** A device never pulls back the copy it has just pushed: when the remote
      file is the one this store's push described, the cycle's comparison
      finds equal stamps and reports the store up to date. */
  lemma OwnPushIsNotPulled(st: Store, env: PushEnv, rp: CycleReplies, id: string)
    requires PushDatabaseToCloud(st, env).request.Some?
    requires rp.localReadFault == env.readFault
    requires rp.listing.Some? && |rp.listing.value| > 0 && rp.listing.value[0].identifier == Some(id)
    requires rp.metadata == Some(PushDatabaseToCloud(st, env).request.value.metadata.(identifier := Some(id)))
    ensures Decide(st, rp).Ok? && Decide(st, rp).value.UpToDate?
    ensures Decide(st, rp).value.cloud == Decide(st, rp).value.local == st.db.info.value.lastModified
  {
    var t := st.db.info.value.lastModified;
    assert rp.metadata.value.properties == Some(TimestampProperties(t));
    assert CloudTimestamp(rp.metadata) == Ok(t);
  }
}

=== FILE: text.dfy ===
/** String helpers the record logic relies on: whitespace trimming, lower-casing
    and substring search. */
module Text {

  /** Members of Foundation's `whitespacesAndNewlines` character set: the
      Unicode separators (categories Zs, Zl, Zp), tab and the line breaks
      U+000A to U+000D and U+0085. */
  predicate IsWhitespace(c: char) {
    || c == ' ' || c == '\t' || c == '\n' || c == '\r'
    || c == '\U{000B}' || c == '\U{000C}' || c == '\U{0085}' || c == '\U{00A0}'
    || c == '\U{1680}' || ('\U{2000}' <= c <= '\U{200A}')
    || c == '\U{2028}' || c == '\U{2029}' || c == '\U{202F}' || c == '\U{205F}'
    || c == '\U{3000}'
  }

  /** A string made of whitespace only (the empty string included). */
  predicate IsBlank(s: string) {
    forall i :: 0 <= i < |s| ==> IsWhitespace(s[i])
  }

  /** Drops the whitespace at the front of `s`. */
  function TrimLeading(s: string): (r: string)
    ensures |r| <= |s|
    ensures r == s[|s| - |r|..]
    ensures IsBlank(s[..|s| - |r|])
    ensures r == [] <==> IsBlank(s)
    ensures r != [] ==> !IsWhitespace(r[0])
  {
    if |s| > 0 && IsWhitespace(s[0]) then
      var r := TrimLeading(s[1..]);
      assert s[..|s| - |r|] == [s[0]] + s[1..][..|s| - 1 - |r|];
      assert s[|s| - |r|..] == s[1..][|s| - 1 - |r|..];
      r
    else s
  }

  /** Drops the whitespace at the end of `s`. */
  function TrimTrailing(s: string): (r: string)
    ensures |r| <= |s|
    ensures r == s[..|r|]
    ensures IsBlank(s[|r|..])
    ensures r == [] <==> IsBlank(s)
    ensures r != [] ==> !IsWhitespace(r[|r| - 1])
  {
    if |s| > 0 && IsWhitespace(s[|s| - 1]) then
      var r := TrimTrailing(s[..|s| - 1]);
      assert s[|r|..] == s[..|s| - 1][|r|..] + [s[|s| - 1]];
      assert s[..|r|] == s[..|s| - 1][..|r|];
      r
    else s
  }

  /** `r` is an infix of `s` with only whitespace before and after it. */
  predicate BlankAround(s: string, r: string) {
    exists a, b :: 0 <= a <= b <= |s| && r == s[a..b] && IsBlank(s[..a]) && IsBlank(s[b..])
  }

  /** `trimmingCharacters(in: .whitespacesAndNewlines)`: the longest infix of
      `s` that neither starts nor ends with whitespace. */
  function Trim(s: string): (r: string)
    ensures |r| <= |s|
    ensures r == [] <==> IsBlank(s)
    ensures r != [] ==> !IsWhitespace(r[0]) && !IsWhitespace(r[|r| - 1])
    ensures BlankAround(s, r)
  {
    var t := TrimLeading(s);
    assert t == [] || !IsBlank(t);
    var r := TrimTrailing(t);
    TrimmedInfix(s, t, r);
    r
  }

  /** Cutting blank text off the front and then off the back leaves an
      infix with blank text on both sides. */
  lemma TrimmedInfix(s: string, t: string, r: string)
    requires |t| <= |s| && t == s[|s| - |t|..] && IsBlank(s[..|s| - |t|])
    requires |r| <= |t| && r == t[..|r|] && IsBlank(t[|r|..])
    ensures BlankAround(s, r)
  {
    var a := |s| - |t|;
    var b := a + |r|;
    assert s[a..b] == t[..|r|] && s[b..] == t[|r|..];
  }

  /** Lower-cases one character; only the ASCII letters A to Z change. */
  function LowerChar(c: char): char {
    if 'A' <= c <= 'Z' then (c as int + 32) as char else c
  }

  predicate IsUpperAscii(c: char) {
    'A' <= c <= 'Z'
  }

  /** `lowercased()`, restricted to ASCII letters. */
  function Lower(s: string): (r: string)
    ensures |r| == |s|
    ensures forall i :: 0 <= i < |r| ==> !IsUpperAscii(r[i])
    ensures forall i :: 0 <= i < |r| && !IsUpperAscii(s[i]) ==> r[i] == s[i]
    ensures forall i :: 0 <= i < |s| && IsUpperAscii(s[i]) ==> r[i] == (s[i] as int + 32) as char
  {
    seq(|s|, i requires 0 <= i < |s| => LowerChar(s[i]))
  }

  /** Lower-casing twice is lower-casing once. */
  lemma LowerIdempotent(s: string)
    ensures Lower(Lower(s)) == Lower(s)
  {
    var l := Lower(s);
    assert forall i :: 0 <= i < |l| ==> Lower(l)[i] == l[i];
  }

  predicate IsPrefix(p: string, s: string) {
    |p| <= |s| && s[..|p|] == p
  }

  /** Foundation's `s.contains(sub)`: `sub` is non-empty and occurs in `s`
      at some position. The empty string is contained in no string. */
  predicate Contains(s: string, sub: string)
    decreases |s|
  {
    |sub| > 0 && (IsPrefix(sub, s) || (|s| > 0 && Contains(s[1..], sub)))
  }

  /** `sub` occurs in `s` starting at position `i`. */
  predicate OccursAt(s: string, sub: string, i: nat) {
    i + |sub| <= |s| && s[i..i + |sub|] == sub
  }

  /** An occurrence of a non-empty `sub` at position `i` makes `s` contain
      it. */
  lemma {:induction false} ContainsAt(s: string, sub: string, i: nat)
    requires |sub| > 0 && OccursAt(s, sub, i)
    ensures Contains(s, sub)
    decreases i
  {
    if i == 0 {
      assert IsPrefix(sub, s);
    } else {
      assert s[1..][i - 1..i - 1 + |sub|] == s[i..i + |sub|];
      ContainsAt(s[1..], sub, i - 1);
    }
  }

  /** Every occurrence sits at some position of `s`, and only a non-empty
      `sub` is contained. */
  lemma {:induction false} ContainsHasPosition(s: string, sub: string)
    requires Contains(s, sub)
    ensures |sub| > 0
    ensures exists i: nat :: OccursAt(s, sub, i)
    decreases |s|
  {
    if IsPrefix(sub, s) {
      assert OccursAt(s, sub, 0);
    } else {
      ContainsHasPosition(s[1..], sub);
      var i: nat :| OccursAt(s[1..], sub, i);
      assert s[1..][i..i + |sub|] == s[i + 1..i + 1 + |sub|];
      assert OccursAt(s, sub, i + 1);
    }
  }

  /** Without an occurrence at any position, `s` does not contain `sub`. */
  lemma NotContainedWithoutOccurrence(s: string, sub: string)
    requires forall i: nat :: !OccursAt(s, sub, i)
    ensures !Contains(s, sub)
  {
    if Contains(s, sub) {
      ContainsHasPosition(s, sub);
    }
  }

  /** A contained string only occurs in a non-empty string. */
  lemma ContainsNonEmpty(s: string, sub: string)
    requires Contains(s, sub) && |sub| > 0
    ensures |s| > 0
  {
    ContainsHasPosition(s, sub);
  }
}
